=== FILE: README.md ===
# The argument cursor of rmutil, modelled in Dafny

`ArgsCursor` (`deps/rmutil/args.c`) is RediSearch's utility for reading a
command's arguments. An `ArgsCursor` is a read position that only moves
forward over a borrowed, fixed array of tokens. The tokens are either plain C
strings or `RedisModuleString` handles; the cursor's `type` says which. On top
of that position the cursor offers:

- positioning: `Advance`, `AdvanceBy` and `AdvanceIfMatch`;
- typed reads: `GetString`, `GetBuffer`, `GetStringNC` and `GetRString` for text
  and handles, and `GetDouble`, `GetLongLong` and the range-checked integer
  reads for numbers. The integer read tries an integer parse first and falls
  back to a double (`tryReadAsDouble`);
- slicing: `GetSlice` and the count-prefixed `GetVarArgs` hand out sub-cursors
  over the same storage;
- a spec-table interpreter: `ParseArgSpec` and `parseSingleSpec` match the
  current token by name, ignoring case, then write the argument's value into the
  spec's target according to the spec's kind.

Every operation here is a pure function. It maps the cursor before the call to
a status (`AC_OK`, `AC_ERR_PARSE`, `AC_ERR_NOARG`, `AC_ERR_ELIMIT`,
`AC_ERR_ENOENT`), the cursor after the call, and the value written to the
caller's out-parameter. That value is `None` where the source leaves the
out-parameter untouched.

The modules follow the layers of `args.c`:

- `Tokens` (`tokens.dfy`): tokens and the host services the cursor relies on.
  These are case-insensitive comparison and the decimal parsers that stand in
  for `strtoll`, `strtod`, `RedisModule_StringToLongLong` and
  `RedisModule_StringToDouble`.
- `Cursors` (`cursor.dfy`): the `Cursor` datatype, the positioning functions,
  and the text and handle reads.
- `Numeric` (`numeric.dfy`): `GetDouble`, `tryReadAsDouble`, `GetLongLong`,
  and the `GetInteger` variants.
- `Slices` (`slices.dfy`): `GetSlice` and `GetVarArgs`.
- `ArgSpecs` (`argspec.dfy`): spec kinds, targets, `parseSingleSpec` and
  `ParseArgSpec`.
- `Scenarios` (`scenarios.dfy`): small concrete inputs, stated as lemmas.

A cursor is `Cursor(backing, base, argc, offset, repr)`. The source's `objs`
pointer is `backing` plus `base`, so a slice is a cursor over the same backing
sequence with a larger `base`. `Forward(a, b)` is the invariant every operation
keeps, except the as-written halves of the Findings (`AdvanceByAsWritten`,
`GetBufferAsWritten`). It says `b` is valid, views the same tokens in the same representation,
and sits at `a`'s position or further on.

`void *` spec targets are modelled as locations in a `Store` map. The kind of a
spec fixes the shape of the value at its target: `int`, `uint32_t` flag word,
`double`, and so on. A table fits a store, for a cursor of a given
representation, when every spec's target holds a value of its kind's shape and
the table has no RSTRING entry unless the cursor is in host mode. The source
asserts host mode only when an RSTRING spec is dispatched; the model asks it of
the whole table before a run (see Left out).

## Model

| member | source | states |
|---|---|---|
| Cursors.AdvanceBy | deps/rmutil/args.c:18-25 | The corrected form, without the size_t wrap (see Findings). Succeeds exactly when n tokens remain. On failure it is NOARG and the cursor is unchanged, so there is no partial move. On success the offset grows by exactly n and the unread tokens are the old ones minus the first n. |
| Cursors.AdvanceByAsWritten | deps/rmutil/args.c:18-25 | The bound test on the size_t sum `offset + by`. Wherever the sum does not wrap it is AdvanceBy. Every `by` of at least 2^64 - offset, with offset above 0, wraps: it reports OK and moves the cursor backwards, where AdvanceBy reports NOARG. |
| Cursors.AdvanceByWrapsBackwards | deps/rmutil/args.c:19-22 | At offset 2 of 5, advancing by 2^64 - 2 reports OK and lands on offset 0 as written, and is NOARG in the corrected form. |
| Cursors.Advance | deps/rmutil/args.c:12-14 | Succeeds exactly when not at the end and then moves by one; at the end it is NOARG with no move. |
| Cursors.AdvanceByAdds | deps/rmutil/args.c:18-25 | Moving by m and then by n succeeds exactly when moving by m + n does, and lands on the same cursor. |
| Cursors.MaybeAdvance | deps/rmutil/args.c:102 | A successful read moves one token, or none under AC_F_NOADVANCE. |
| Cursors.GetString | deps/rmutil/args.c:173-184 | NOARG exactly at the end, with no move and nothing written. Otherwise it yields the current token's text in either representation, and moves unless AC_F_NOADVANCE is set. |
| Cursors.GetBuffer | deps/rmutil/args.c:188-195 | The corrected form (see Findings). NOARG exactly at the end, with no move and nothing written. Otherwise the buffer holds the current token's characters with their length, in both representations, and the cursor moves unless AC_F_NOADVANCE is set. |
| Cursors.GetBufferAsWritten | deps/rmutil/args.c:188-195 | `SimpleBuff{CURRENT(), strlen(CURRENT())}` as it stands: NOARG exactly at the end; otherwise in generic mode the token's characters, and in host mode the memory of the RedisModuleString handle itself. |
| Cursors.BufferDiffersInHostMode | deps/rmutil/args.c:177-181 | The code as written and the corrected GetBuffer agree on status and move everywhere, and on the buffer in generic mode. In host mode the code as written never hands out the token's characters, which is what GetString (args.c:177-181) does. |
| Cursors.GetStringNC | deps/rmutil/args.c:202-208 | Yields no text exactly at the end, and then does not move. Otherwise it yields the current token's text and moves past it. |
| Cursors.GetStringNCIsGetString | deps/rmutil/args.c:202-208 | GetStringNC is GetString with no flags: the same text and the same move, and it yields text exactly when GetString succeeds. |
| Cursors.GetRString | deps/rmutil/args.c:161-169 | Only a host-mode cursor may be asked. NOARG exactly at the end. Otherwise it yields the current handle itself. |
| Cursors.PeekIsInfallible | deps/rmutil/args.c:38-39 | While a token remains, the AC_F_NOADVANCE GetString cannot fail, does not move, and yields the current text. This is what the assert at line 39 relies on, and what keeps the mis-parenthesised `rv` at line 305 harmless. |
| Tokens.CString | deps/rmutil/args.c:40 | The text a C string function sees: the longest NUL-free prefix, ended by a NUL or by the end of the text, and the whole text when it has no NUL. |
| Cursors.AdvanceIfMatch | deps/rmutil/args.c:32-45 | At the end: no match and no move. Otherwise it matches exactly when the texts up to the first NUL of each are equal ignoring case (for NUL-free texts: the whole token equals s ignoring case); on a match it moves by one, and on no match it leaves the cursor unchanged. |
| Tokens.EqualsIgnoreCase | deps/rmutil/args.c:40 | `strcasecmp(a, b) == 0` in the "C" locale: it holds exactly when the two strings lower-case to the same string, and every string equals itself. |
| Tokens.IntOf | deps/rmutil/args.c:79-89 | The integer parse of a token. An empty token reads as 0 through `strtoll`, whose end pointer already sits on the terminator, and is rejected by the host's parser. An accepted token is digits with at most a leading sign, and nothing is left over. A negative result comes from a leading '-'. |
| Tokens.RealOf | deps/rmutil/args.c:137-147 | The floating-point parse of a token, with the same empty-token rule. An accepted token is digits and at most one '.', with at most a leading sign. |
| Tokens.ParsesItsDecimalForm | deps/rmutil/args.c:79-89 | Round trip: the decimal spelling of every integer, as "%lld" writes it, parses back to that integer as an integer and as a double, in both representations. |
| Tokens.EqualsIgnoreCaseIsEquivalence | deps/rmutil/args.c:40 | The case-insensitive comparison used for matching is reflexive, symmetric and transitive. |
| Tokens.IntegersParseAsReals | deps/rmutil/args.c:76-78 | A token that parses as an integer parses as the same number when read as a double. |
| Tokens.TruncExactIffIntegral | deps/rmutil/args.c:59 | The round trip `(double)(long long)d == d` holds exactly when d is a whole number. The truncation is toward zero, as the C cast is. |
| Tokens.Trunc | deps/rmutil/args.c:55 | The conversion of a double to long long truncates toward zero: the result is within one of the input and on the same side of zero. |
| Numeric.GetDouble | deps/rmutil/args.c:135-157 | PARSE exactly when the token is not a number. ELIMIT exactly when it is a number that breaks AC_F_GE0 or AC_F_GE1. Neither error moves the cursor or writes anything. On success the value is the parse, meets the limits, and the cursor moves unless AC_F_NOADVANCE is set. |
| Numeric.TryReadAsDouble | deps/rmutil/args.c:49-65 | Succeeds exactly when the token reads as a double that meets the caller's limits and is whole or AC_F_COALESCE is set. The result is the truncation toward zero, which for a whole number is the number itself. |
| Numeric.GetLongLong | deps/rmutil/args.c:69-105 | NOARG exactly at the end. No error moves the cursor. A token that is an integer is used as it is, and only the limits can reject it, as ELIMIT. Otherwise: not a double gives PARSE; a double breaking a limit gives PARSE; a fraction without AC_F_COALESCE gives PARSE; else the truncated value, which is then limit-checked. Success meets the limits and moves unless AC_F_NOADVANCE is set. |
| Numeric.LimitFailureMeansDirectInteger | deps/rmutil/args.c:91-101 | An ELIMIT from GetLongLong always comes from a token that parsed directly as an integer breaking a limit. |
| Numeric.LongLongIgnoresNoAdvance | deps/rmutil/args.c:69-105 | AC_F_NOADVANCE changes neither the status nor the value of GetLongLong. |
| Numeric.GetInteger | deps/rmutil/args.c:109-131 | Assumed template: GetLongLong with AC_F_GE0 added for unsigned targets, then a range check. The status equals GetLongLong's when that fails. Otherwise it succeeds exactly when the value lies in [lo, hi], and a value out of range is ELIMIT. No error moves the cursor. |
| Numeric.GetInt | deps/rmutil/args.c:117-119 | A success lies within INT_MIN..INT_MAX. Errors do not move. |
| Numeric.GetUnsigned | deps/rmutil/args.c:113-115 | A success lies within 0..UINT_MAX. Errors do not move. |
| Numeric.GetUnsignedLongLong | deps/rmutil/args.c:109-111 | A success lies within 0..LLONG_MAX. Errors do not move. |
| Numeric.GetU32 | deps/rmutil/args.c:121-123 | A success lies within 0..UINT32_MAX. Errors do not move. |
| Numeric.GetU64 | deps/rmutil/args.c:125-127 | A success lies within 0..UINT64_MAX. Errors do not move. |
| Numeric.GetSize | deps/rmutil/args.c:129-131 | A success lies within 0..SIZE_MAX. Errors do not move. |
| Numeric.NoAdvanceString | deps/rmutil/args.c:173-195 | For GetString, GetBuffer and GetRString, a read with AC_F_NOADVANCE stays put and can be repeated with the same answer. The ordinary read has the same status and value, and moves exactly one token on success and none on failure. |
| Numeric.NoAdvanceLongLong | deps/rmutil/args.c:69-105 | The same peek-then-move relation for GetLongLong. |
| Numeric.NoAdvanceInteger | deps/rmutil/args.c:109-131 | The same peek-then-move relation for every integer variant (any range, signed or unsigned). |
| Numeric.NoAdvanceDouble | deps/rmutil/args.c:135-157 | The same peek-then-move relation for GetDouble. |
| Slices.GetSlice | deps/rmutil/args.c:229-240 | NOARG exactly when fewer than n tokens remain, and then the parent is unchanged. Otherwise the sub-cursor shares the parent's storage, starts at the parent's position, has n tokens and offset 0 and the same representation, and views exactly the next n tokens. The parent moves by n. |
| Slices.SliceSplitsTheRest | deps/rmutil/args.c:229-240 | After a slice, the sub-cursor's tokens followed by the parent's unread tokens are the parent's old unread tokens. The two read disjoint positions of the storage, which together cover the old unread positions. |
| Slices.GetVarArgs | deps/rmutil/args.c:216-223 | A failed count read is returned as it is, with the cursor untouched. With a count N it succeeds exactly when N tokens follow the count. If fewer follow it is NOARG, with the count already consumed. |
| Slices.VarArgsTakesCountedGroup | deps/rmutil/args.c:212-223 | A successful GetVarArgs hands out exactly the N tokens after the count and moves past all N + 1. |
| ArgSpecs.NameMatches | deps/rmutil/args.c:311-314 | The length test followed by `strncasecmp` over that length holds exactly when the name equals the token ignoring case; the length test is only a shortcut. |
| ArgSpecs.FindSpecFrom | deps/rmutil/args.c:310-317 | The scan yields the first entry from i on whose name has the token's length and equals it ignoring case, or none if no entry matches. |
| ArgSpecs.FindSpec | deps/rmutil/args.c:308-321 | First match wins: the found entry matches and no earlier one does. No result means that no entry matches. |
| ArgSpecs.FindSpecInLongerTable | deps/rmutil/args.c:310-317 | Appending entries to a table never shadows a name the table already knows. A name it does not know can only be found among the new entries. |
| ArgSpecs.SetBits | deps/rmutil/args.c:249-251 | `word \|= mask` sets every bit of the mask and keeps every other bit. |
| ArgSpecs.ClearBits | deps/rmutil/args.c:252-254 | `word &= ~mask` clears every bit of the mask and keeps every other bit. |
| ArgSpecs.SetFlag | deps/rmutil/args.c:246-254 | BOOLFLAG, BITFLAG and UNFLAG read no token, cannot fail and do not move. BOOLFLAG writes 1, BITFLAG sets the mask bits of the flag word, UNFLAG clears them. Nothing but the target changes. |
| ArgSpecs.ReadDouble | deps/rmutil/args.c:255-256 | The DOUBLE dispatch keeps the frame: it moves only forward, writes only the target, keeps the target's shape, and changes no store on failure. With no token left it is NOARG; this is the corrected behaviour, see Findings. |
| ArgSpecs.IntegerRead | deps/rmutil/args.c:257-264 | INT, LLONG, ULLONG and UINT use the integer read of the target's C type, which moves only forward. |
| ArgSpecs.IntegerValue | deps/rmutil/args.c:257-264 | The value an integer kind stores has that kind's shape. |
| ArgSpecs.ReadInteger | deps/rmutil/args.c:257-264 | The integer dispatches keep the frame. |
| ArgSpecs.TextRead | deps/rmutil/args.c:265-270 | STRING, BUFFER and RSTRING read the current token as text, a buffer or the host handle, moving only forward. A success yields a value of the kind's shape. BUFFER goes through the corrected Cursors.GetBuffer, so in host mode it yields the token's characters where args.c:268 and 192 hand out the handle's memory (see Findings). |
| ArgSpecs.ReadText | deps/rmutil/args.c:265-270 | The text dispatches keep the frame: only forward, only the target written, its shape kept, nothing written on failure. BUFFER uses the corrected GetBuffer. |
| ArgSpecs.SubRead | deps/rmutil/args.c:271-274 | SUBARGS uses GetVarArgs and SUBARGS_N uses GetSlice with the spec's length; both move only forward. |
| ArgSpecs.ReadSub | deps/rmutil/args.c:271-274 | The sub-cursor dispatches keep the frame. |
| ArgSpecs.ParseSingleSpec | deps/rmutil/args.c:244-279 | Every dispatch keeps the frame. Only kinds that read a token can fail. |
| ArgSpecs.MissingValueIsNoArg | deps/rmutil/args.c:244-279 | With no token left, every reading kind is NOARG and changes nothing. The one exception is a slice of length 0, which succeeds. |
| ArgSpecs.ReadingKindsFollowTheirRead | deps/rmutil/args.c:255-274 | Each reading kind reports exactly its typed read's status and move, and on success stores exactly the value read: GetDouble (with a token left), GetInt, GetLongLong, GetUnsignedLongLong, GetUnsigned, GetString, GetBuffer (the corrected form), GetRString (on a host-mode cursor), GetVarArgs and GetSlice. |
| ArgSpecs.BufferDispatchUsesCorrectedRead | deps/rmutil/args.c:267-268 | A BUFFER dispatch with a token left succeeds and stores the token's characters, in either representation. In host mode GetBuffer as written would hand out the handle's memory instead. |
| ArgSpecs.DispatchKeepsTableFit | deps/rmutil/args.c:244-279 | After one dispatch every spec of the table still fits the store. |
| ArgSpecs.OneTurn | deps/rmutil/args.c:323-324 | One loop turn after a name matched moves past the name. It leaves locations no spec targets alone, keeps the table fitting, and fails only for a kind that reads a token. |
| ArgSpecs.ParseArgSpec | deps/rmutil/args.c:295-332 | The run moves only forward, keeps the store's locations, and keeps every spec fitting its target. |
| ArgSpecs.Turn | deps/rmutil/args.c:308-329 | The rest of the run from a matched name moves only forward, keeps the store's locations, and keeps the table fitting. |
| ArgSpecs.ParseArgSpecOutcome | deps/rmutil/args.c:283-332 | OK only once every argument is consumed. ENOENT with the cursor on a token no spec's name matches. Any other status is reported with a spec index, for a kind that reads a token, with what was consumed staying consumed; ParseArgSpecFailureIsATurn says which spec and which status. |
| ArgSpecs.TurnOutcome | deps/rmutil/args.c:319-330 | The same three-way outcome for the rest of a run after a matched name. |
| ArgSpecs.ParseArgSpecFailureIsATurn | deps/rmutil/args.c:308-329 | A failed run's errSpec and status come from one turn. At some position the run reached, the token's first matching spec is the one reported as errSpec. Dispatching that spec after its name, on the store of that moment, fails with exactly the run's status, cursor and store. |
| ArgSpecs.TurnFailureIsATurn | deps/rmutil/args.c:323-329 | The same for the rest of a run after a name matched its first spec i. A failure of this very turn reports i with its dispatch's status. |
| ArgSpecs.ParseArgSpecWritesOnlyTargets | deps/rmutil/args.c:295-332 | A run writes only to locations that some spec of the table targets. |
| ArgSpecs.TurnWritesOnlyTargets | deps/rmutil/args.c:323-330 | The same frame for the rest of a run after a matched name. |
| ArgSpecs.TableFitsPrefix | deps/rmutil/args.c:310 | A table that fits a store still fits it with its trailing entries removed. |
| ArgSpecs.LongerTableSameRun | deps/rmutil/args.c:304-332 | Appending specs to a table changes nothing about a run that never met an unknown name, down to the failing spec's index. |
| ArgSpecs.UnknownNameIsARestingPoint | deps/rmutil/args.c:291-293 | ENOENT is not a hard error. Running the same table again from where it stopped stops at once with the same outcome. |
| Scenarios.ReadsFortyTwo | deps/rmutil/args.c:117-119 | GetInt on "42" yields 42 and moves by one. |
| Scenarios.WholeDoubleIsAnInteger | deps/rmutil/args.c:76-78 | GetInt on "3.00" yields 3 without AC_F_COALESCE. |
| Scenarios.FractionNeedsCoalesce | deps/rmutil/args.c:54-60 | GetInt on "3.14" is PARSE without AC_F_COALESCE and 3 with it. |
| Scenarios.NegativeUnsignedIsLimit | deps/rmutil/args.c:113-115 | GetUnsigned on "-1" is ELIMIT with no move. |
| Scenarios.DoubleLimits | deps/rmutil/args.c:151-153 | With AC_F_GE1, GetDouble on "0.5" is ELIMIT and on "1.0" yields 1.0. |
| Scenarios.LimitCodeDependsOnSpelling | deps/rmutil/args.c:51 | With AC_F_GE1, GetLongLong on "0" is ELIMIT but on "0.0" is PARSE. |
| Scenarios.EmptyTokenByRepresentation | deps/rmutil/args.c:79-89 | An empty token reads as 0 through strtoll but is PARSE through the host's parser. |
| Scenarios.MatchingNames | deps/rmutil/args.c:32-45 | AdvanceIfMatch("FOO") matches "foo" and moves. It does not match "bar" and stays. At the end it reports no match. |
| Scenarios.NulEndsTheComparison | deps/rmutil/args.c:40 | A token whose text before its first NUL equals a NUL-free name ignoring case matches that name and is consumed, whatever follows the NUL. |
| Scenarios.NulInAHostToken | deps/rmutil/args.c:40 | The host token "foo\0bar" matches "FOO" and is consumed. |
| Scenarios.CountedGroup | deps/rmutil/args.c:216-223 | GetVarArgs on "2 a b c" yields a sub-cursor of exactly "a b" and leaves the parent on "c". |
| Scenarios.CountTakesFive | deps/rmutil/args.c:308-324 | On "COUNT 5 BADFLAG", COUNT is found and its UINT spec stores 5. |
| Scenarios.UnknownArgumentStopsThere | deps/rmutil/args.c:304-332 | On "COUNT 5 BADFLAG" with COUNT unsigned, the run stores 5 and then stops with ENOENT on "BADFLAG". |
| Scenarios.DoubleSpecWithoutValue | deps/rmutil/args.c:255-256 | A DOUBLE spec whose name is the last token reaches GetDouble with the cursor at its end. The model answers NOARG for that spec. |

## Left out

- The number formats are a subset. The parsers accept an optional sign, decimal digits, and for doubles an optional fraction. Exponents, hexadecimal, `inf`/`nan`, leading white space and locale are not modelled, and neither are the host parsers' own rules beyond rejecting the empty string.
- The overflow sentinels are not modelled. `strtoll`'s `LLONG_MIN`/`LLONG_MAX` test (args.c:86), `strtod`'s `HUGE_VAL` test (args.c:144), the rounding of `strtod`, and what the `(long long)` cast does to an out-of-range double are all left out. Integers and doubles are unbounded `int` and `real`.
- Numeric.GetInteger: the template at args.c:110-130 lives in `args.h`, which is not part of this model. Its behaviour is assumed, not taken from the source: GetLongLong with AC_F_GE0 added for unsigned targets, a range check against the target type reported as ELIMIT, and a move only after the check.
- Numeric.GetUnsignedLongLong: the upper bound is `LLONG_MAX`, as args.c:110 passes it, not `ULLONG_MAX`.
- Cursors.GetBuffer: in generic mode the length is the token's length. The source measures it with `strlen`, so an embedded NUL would shorten it, and that shortening is not modelled here (Cursors.AdvanceIfMatch does model the NUL stop of `strcasecmp`). In host mode the source's buffer is the handle's memory; that is Cursors.GetBufferAsWritten, and what lies in that memory is not modelled.
- Cursors.AdvanceBy: n is unbounded, so the corrected form never wraps. The source's size_t wrap is Cursors.AdvanceByAsWritten. Within args.c only Advance (by 1) and GetSlice (after its `n > NumRemaining()` test) call AdvanceBy, and neither can wrap.
- Cursors.GetString: the optional length out-parameter is not modelled. Its value is the length of the yielded text.
- ArgSpecs.ParseArgSpec: the whole table must fit the cursor before the run, so an RSTRING entry may appear only in a table used with a host-mode cursor. The source accepts an unused RSTRING entry in a generic-mode run and asserts host mode only when that entry is dispatched (args.c:269-270 and 162); that run is not modelled.
- ArgSpecs.SetFlag: the mask of a BITFLAG/UNFLAG spec is `spec->slicelen`, a `size_t` written into a `uint32_t`. The model takes it as a 32-bit word, so the truncation of wider masks is not modelled.
- ArgSpecs.ParseSingleSpec: the `default:` branch (`fprintf` and `abort` on an unknown kind) cannot be reached, because the kinds are a closed datatype.
- The `errSpec` out-pointer is modelled as the failing spec's index. A `NULL` `errSpec` only suppresses the write, and a caller who passes one is not modelled separately.
- The host calls `RedisModule_StringPtrLen`, `RedisModule_StringToLongLong` and `RedisModule_StringToDouble` are functions of the token. Both representations expose the same text, and a host handle is the token itself.
- Tokens.EqualsIgnoreCase lower-cases ASCII letters only, as `strcasecmp` does in the "C" locale. Other locales are not modelled.
- Aliasing between `void *` spec targets is not modelled. Each target is a store location, so two specs naming one location write the same entry.

## Findings

| source | as written | input that shows it | evidently intended | confidence | as-written member | corrected member |
|---|---|---|---|---|---|---|
| deps/rmutil/args.c:188-195 | `GetBuffer` builds `SimpleBuff{CURRENT(), strlen(CURRENT())}` with no representation test. In host mode `CURRENT()` is the `RedisModuleString` handle (args.c:166), so the buffer points at the handle object and its length is `strlen` of that memory. `GetString` goes through `RedisModule_StringPtrLen` (args.c:177-181). | a host-mode cursor over the token "abc", read by `GetBuffer` | the buffer holds "abc" with length 3, through `RedisModule_StringPtrLen` as in GetString | medium; not executed | Cursors.GetBufferAsWritten, with Cursors.BufferDiffersInHostMode | Cursors.GetBuffer, with Cursors.BufferDiffersInHostMode (agreement in generic mode); the BUFFER dispatch of the spec table uses it (ArgSpecs.BufferDispatchUsesCorrectedRead) |
| deps/rmutil/args.c:18-25 | `AdvanceBy` tests `offset + by > argc` on a size_t sum. A `by` of at least 2^64 - offset wraps the sum, passes the test, and `offset += by` moves the cursor backwards while returning `AC_OK`. | offset 2, argc 5, `by` = 2^64 - 2 | `AC_ERR_NOARG`, as for any `by` larger than what remains (for instance a test `by > argc - offset`) | low; not executed; no caller inside args.c passes such a `by` | Cursors.AdvanceByAsWritten, with Cursors.AdvanceByWrapsBackwards | Cursors.AdvanceBy |
| deps/rmutil/args.c:255-256 | The DOUBLE case of `parseSingleSpec` calls `GetDouble`, which reads `objs[offset]` with no `offset == argc` check (args.c:135-147). `ParseArgSpec` has already consumed the name at args.c:323. So when the name is the last argument, `GetDouble` reads one past the end of the argument array. | argv `["ALPHA"]` with the single spec `{"alpha", DOUBLE}` | `AC_ERR_NOARG` for that spec, as GetLongLong (args.c:71) and every other reading kind report when the value is missing | high; not executed | Scenarios.DoubleSpecWithoutValue (with Numeric.GetDouble, whose precondition is the missing check) | ArgSpecs.ReadDouble, with ArgSpecs.MissingValueIsNoArg |

## Where the code and its description part ways

- AC_ERR_ELIMIT stands for a value that decoded but breaks AC_F_GE0 or AC_F_GE1, so one would expect `0.0` read through GetLongLong under AC_F_GE1 to get it (it is integral, so the double fallback accepts it with or without AC_F_COALESCE). Nothing in args.c says so, though. In the integer read's double fallback, the code passes the caller's limit flags into `GetDouble` (args.c:51). That `GetDouble` reports ELIMIT, and `tryReadAsDouble` turns every failure into PARSE. The model follows the code: Numeric.GetLongLong reports PARSE there, and Scenarios.LimitCodeDependsOnSpelling shows the two spellings of zero getting different codes.
- In generic mode `strtoll` on an empty token converts nothing and leaves the end pointer on the terminator. The empty token therefore reads as 0, and the model keeps that (Tokens.IntOf, Tokens.RealOf).

=== FILE: argspec.dfy ===
/*
 * The spec-table interpreter: ParseArgSpec repeatedly peeks the current
 * token, looks it up by name in a table of argument specs, consumes the name
 * and hands the rest to the spec's kind (parseSingleSpec), until the
 * arguments run out, a name is unknown, or a value fails to decode.
 *
 * The `void *` targets of the source are locations in a Store; each kind
 * writes a value of one shape there, so a table is well-typed when every
 * spec's location holds a value of its kind's shape.
 */
module ArgSpecs {
  import opened Tokens
  import opened Cursors
  import opened Numeric
  import opened Slices

  /** The AC_ARGTYPE_* kinds, each with what it needs. */
  datatype Kind =
    | BoolFlag
    | BitFlag(mask: bv32)
    | UnFlag(mask: bv32)
    | Double(flags: Flags)
    | Int(flags: Flags)
    | LLong(flags: Flags)
    | ULLong(flags: Flags)
    | UInt(flags: Flags)
    | Str
    | Buffer
    | RString
    | SubArgs
    | SubArgsN(len: nat)
  {
    /** The kinds that read from the argument stream; the three flag kinds only write their target. */
    predicate TakesValue() {
      !(BoolFlag? || BitFlag? || UnFlag?)
    }
  }

  type Loc = nat

  /** What a target location holds, by the C type of the target. */
  datatype Value =
    | IntVal(i: int)          // int: BOOLFLAG and INT targets
    | LongVal(ll: int)        // long long
    | ULongVal(ull: int)      // unsigned long long
    | UIntVal(u: int)         // unsigned
    | BitsVal(bits: bv32)     // uint32_t flag word
    | RealVal(d: real)        // double
    | TextVal(s: string)      // const char * and its length
    | BufVal(buf: string)     // SimpleBuff
    | HandleVal(h: Token)     // RedisModuleString *
    | SubVal(sub: Cursor)     // ArgsCursor

  type Store = map<Loc, Value>

  datatype ArgSpec = ArgSpec(name: string, kind: Kind, target: Loc)

  datatype Shape = IntS | LongS | ULongS | UIntS | BitsS | RealS | TextS | BufS | HandleS | SubS

  function KindShape(k: Kind): Shape {
    match k
    case BoolFlag => IntS
    case BitFlag(_) => BitsS
    case UnFlag(_) => BitsS
    case Double(_) => RealS
    case Int(_) => IntS
    case LLong(_) => LongS
    case ULLong(_) => ULongS
    case UInt(_) => UIntS
    case Str => TextS
    case Buffer => BufS
    case RString => HandleS
    case SubArgs => SubS
    case SubArgsN(_) => SubS
  }

  function ValueShape(v: Value): Shape {
    match v
    case IntVal(_) => IntS
    case LongVal(_) => LongS
    case ULongVal(_) => ULongS
    case UIntVal(_) => UIntS
    case BitsVal(_) => BitsS
    case RealVal(_) => RealS
    case TextVal(_) => TextS
    case BufVal(_) => BufS
    case HandleVal(_) => HandleS
    case SubVal(_) => SubS
  }

  /**
   * The spec can be dispatched: its target holds a value of its kind's shape,
   * and a host-handle spec appears only in tables for host-mode cursors
   * (GetRString asserts host mode when such a spec is dispatched).
   */
  predicate SpecFits(repr: Repr, s: ArgSpec, store: Store) {
    && s.target in store
    && ValueShape(store[s.target]) == KindShape(s.kind)
    && (s.kind.RString? ==> repr == HostObject)
  }

  predicate TableFits(repr: Repr, specs: seq<ArgSpec>, store: Store) {
    forall i :: 0 <= i < |specs| ==> SpecFits(repr, specs[i], store)
  }

  predicate IsTarget(specs: seq<ArgSpec>, l: Loc) {
    exists i :: 0 <= i < |specs| && specs[i].target == l
  }

  // ---------------------------------------------------------------------------
  // Looking a name up

  /**
   * A spec matches a token when its name has the token's length and equals it
   * ignoring case. The length test is only a shortcut: the match is exactly
   * case-insensitive equality of the whole name and the whole token.
   */
  predicate NameMatches(s: ArgSpec, text: string)
    ensures NameMatches(s, text) <==> EqualsIgnoreCase(s.name, text)
    ensures NameMatches(s, text) <==> LowerAll(s.name) == LowerAll(text)
  {
    |s.name| == |text| && EqualsIgnoreCase(s.name, text)
  }

  /** The table scan from entry i on: the first matching entry, if any. */
  function FindSpecFrom(specs: seq<ArgSpec>, text: string, i: nat): (r: Option<nat>)
    requires i <= |specs|
    ensures r.Some? ==> i <= r.value < |specs| && NameMatches(specs[r.value], text)
    ensures r.Some? ==> forall j :: i <= j < r.value ==> !NameMatches(specs[j], text)
    ensures r.None? ==> forall j :: i <= j < |specs| ==> !NameMatches(specs[j], text)
    decreases |specs| - i
  {
    if i == |specs| then None
    else if |specs[i].name| != |text| then FindSpecFrom(specs, text, i + 1)
    else if EqualsIgnoreCase(specs[i].name, text) then Some(i)
    else FindSpecFrom(specs, text, i + 1)
  }

  function FindSpec(specs: seq<ArgSpec>, text: string): (r: Option<nat>)
    ensures r.Some? ==> r.value < |specs| && NameMatches(specs[r.value], text)
    ensures r.Some? ==> forall j :: 0 <= j < r.value ==> !NameMatches(specs[j], text)
    ensures r.None? ==> forall j :: 0 <= j < |specs| ==> !NameMatches(specs[j], text)
  {
    FindSpecFrom(specs, text, 0)
  }

  /** Entries appended to a table never shadow a name the table already knows. */
  lemma {:induction false} FindSpecInLongerTable(specs: seq<ArgSpec>, extra: seq<ArgSpec>, text: string)
    ensures FindSpec(specs, text).Some? ==> FindSpec(specs + extra, text) == FindSpec(specs, text)
    ensures FindSpec(specs, text).None? ==>
              FindSpec(specs + extra, text).None? || FindSpec(specs + extra, text).value >= |specs|
  {
    var all := specs + extra;
    var m := FindSpec(specs, text);
    var k := FindSpec(all, text);
    forall j | 0 <= j < |specs|
      ensures all[j] == specs[j]
    {
    }
  }

  // ---------------------------------------------------------------------------
  // Dispatching one spec

  datatype Dispatch = Dispatch(status: Status, next: Cursor, store: Store)

  /** The frame every dispatch keeps: the cursor only moves forward, only the target may change, keeping its shape. */
  predicate DispatchFrame(c: Cursor, s: ArgSpec, store: Store, r: Dispatch)
    requires c.Valid() && s.target in store
  {
    && Forward(c, r.next)
    && r.store.Keys == store.Keys
    && (forall l :: l in store && l != s.target ==> r.store[l] == store[l])
    && ValueShape(r.store[s.target]) == ValueShape(store[s.target])
    && (r.status != Ok ==> r.store == store)
  }

  lemma BitsShaped(v: Value)
    requires ValueShape(v) == BitsS
    ensures v.BitsVal?
  {
  }

  /** `word |= mask`: every bit of the mask set, every other bit kept. */
  function SetBits(word: bv32, mask: bv32): (r: bv32)
    ensures r & mask == mask && r & !mask == word & !mask
  {
    word | mask
  }

  /** `word &= ~mask`: every bit of the mask cleared, every other bit kept. */
  function ClearBits(word: bv32, mask: bv32): (r: bv32)
    ensures r & mask == 0 && r & !mask == word & !mask
  {
    word & !mask
  }

  /**
   * BOOLFLAG, BITFLAG and UNFLAG read no token and cannot fail: BOOLFLAG
   * writes 1, BITFLAG sets the mask's bits in the flag word and UNFLAG clears
   * them (SetBits, ClearBits).
   */
  function SetFlag(c: Cursor, s: ArgSpec, store: Store): (r: Dispatch)
    requires c.Valid() && s.target in store && ValueShape(store[s.target]) == KindShape(s.kind)
    requires !s.kind.TakesValue()
    ensures DispatchFrame(c, s, store, r) && r.status == Ok && r.next == c
    ensures s.kind == BoolFlag ==> r.store[s.target] == IntVal(1)
    ensures s.kind.BitFlag? ==>
              store[s.target].BitsVal? && r.store[s.target] == BitsVal(SetBits(store[s.target].bits, s.kind.mask))
    ensures s.kind.UnFlag? ==>
              store[s.target].BitsVal? && r.store[s.target] == BitsVal(ClearBits(store[s.target].bits, s.kind.mask))
  {
    var t := s.target;
    match s.kind
    case BoolFlag => Dispatch(Ok, c, store[t := IntVal(1)])
    case BitFlag(m) =>
      BitsShaped(store[t]);
      Dispatch(Ok, c, store[t := BitsVal(SetBits(store[t].bits, m))])
    case UnFlag(m) =>
      BitsShaped(store[t]);
      Dispatch(Ok, c, store[t := BitsVal(ClearBits(store[t].bits, m))])
  }

  /**
   * DOUBLE: GetDouble with the spec's flags.
   * Deviation: the source calls GetDouble here without asking whether a value
   * token is there; here a double spec with nothing left is NoArg, as every
   * other reading kind is.
   */
  function ReadDouble(c: Cursor, s: ArgSpec, store: Store): (r: Dispatch)
    requires c.Valid() && SpecFits(c.repr, s, store) && s.kind.Double?
    ensures DispatchFrame(c, s, store, r)
  {
    if c.AtEnd() then Dispatch(NoArg, c, store)
    else
      var g := GetDouble(c, s.kind.flags);
      if g.status == Ok then Dispatch(Ok, g.next, store[s.target := RealVal(g.value.value)])
      else Dispatch(g.status, g.next, store)
  }

  predicate IsInteger(k: Kind) {
    k.Int? || k.LLong? || k.ULLong? || k.UInt?
  }

  /** The integer read for the target's C type, with the spec's flags. */
  function IntegerRead(c: Cursor, k: Kind): (r: Read<int>)
    requires c.Valid() && IsInteger(k)
    ensures Forward(c, r.next)
    ensures r.status == Ok ==> r.value.Some?
  {
    match k
    case Int(f) => GetInt(c, f)
    case LLong(f) => GetLongLong(c, f)
    case ULLong(f) => GetUnsignedLongLong(c, f)
    case UInt(f) => GetUnsigned(c, f)
  }

  /** The value an integer kind stores for n. */
  function IntegerValue(k: Kind, n: int): (v: Value)
    requires IsInteger(k)
    ensures ValueShape(v) == KindShape(k)
  {
    match k
    case Int(_) => IntVal(n)
    case LLong(_) => LongVal(n)
    case ULLong(_) => ULongVal(n)
    case UInt(_) => UIntVal(n)
  }

  /** INT, LLONG, ULLONG and UINT: the integer read of the target's C type with the spec's flags. */
  function ReadInteger(c: Cursor, s: ArgSpec, store: Store): (r: Dispatch)
    requires c.Valid() && SpecFits(c.repr, s, store) && IsInteger(s.kind)
    ensures DispatchFrame(c, s, store, r)
  {
    var g := IntegerRead(c, s.kind);
    if g.status == Ok then Dispatch(Ok, g.next, store[s.target := IntegerValue(s.kind, g.value.value)])
    else Dispatch(g.status, g.next, store)
  }

  predicate IsText(k: Kind) {
    k.Str? || k.Buffer? || k.RString?
  }

  /** The current token as the text kind asks for it: a string, a buffer, or the host handle. */
  function TextRead(c: Cursor, k: Kind): (r: Read<Value>)
    requires c.Valid() && IsText(k) && (k.RString? ==> c.repr == HostObject)
    ensures Forward(c, r.next)
    ensures r.status == Ok ==> r.value.Some? && ValueShape(r.value.value) == KindShape(k)
  {
    match k
    case Str =>
      var g := GetString(c, NoFlags);
      Read(g.status, g.next, if g.status == Ok then Some(TextVal(g.value.value)) else None)
    case Buffer =>
      var g := GetBuffer(c, NoFlags);
      Read(g.status, g.next, if g.status == Ok then Some(BufVal(g.value.value)) else None)
    case RString =>
      var g := GetRString(c, NoFlags);
      Read(g.status, g.next, if g.status == Ok then Some(HandleVal(g.value.value)) else None)
  }

  /** STRING, BUFFER and RSTRING: the current token as text, as a buffer, or as the host handle. */
  function ReadText(c: Cursor, s: ArgSpec, store: Store): (r: Dispatch)
    requires c.Valid() && SpecFits(c.repr, s, store) && IsText(s.kind)
    ensures DispatchFrame(c, s, store, r)
  {
    var g := TextRead(c, s.kind);
    if g.status == Ok then Dispatch(Ok, g.next, store[s.target := g.value.value])
    else Dispatch(g.status, g.next, store)
  }

  /** The sub-cursor of a SUBARGS (count read from the stream) or SUBARGS_N (length fixed by the spec) kind. */
  function SubRead(c: Cursor, k: Kind): (r: Read<Cursor>)
    requires c.Valid() && (k.SubArgs? || k.SubArgsN?)
    ensures Forward(c, r.next)
    ensures r.status == Ok ==> r.value.Some?
  {
    if k.SubArgs? then GetVarArgs(c) else GetSlice(c, k.len)
  }

  /** SUBARGS and SUBARGS_N: a sub-cursor over the group that follows. */
  function ReadSub(c: Cursor, s: ArgSpec, store: Store): (r: Dispatch)
    requires c.Valid() && SpecFits(c.repr, s, store) && (s.kind.SubArgs? || s.kind.SubArgsN?)
    ensures DispatchFrame(c, s, store, r)
  {
    var g := SubRead(c, s.kind);
    if g.status == Ok then Dispatch(Ok, g.next, store[s.target := SubVal(g.value.value)])
    else Dispatch(g.status, g.next, store)
  }

  /** parseSingleSpec, the name already consumed: dispatch on the spec's kind. */
  function ParseSingleSpec(c: Cursor, s: ArgSpec, store: Store): (r: Dispatch)
    requires c.Valid() && SpecFits(c.repr, s, store)
    ensures DispatchFrame(c, s, store, r)
    ensures r.status != Ok ==> s.kind.TakesValue()
  {
    if !s.kind.TakesValue() then SetFlag(c, s, store)
    else if s.kind.Double? then ReadDouble(c, s, store)
    else if IsInteger(s.kind) then ReadInteger(c, s, store)
    else if IsText(s.kind) then ReadText(c, s, store)
    else ReadSub(c, s, store)
  }


  /**
   * A reading kind with no token left fails with NoArg and changes nothing;
   * the only exception is a fixed-length slice of length 0, which succeeds.
   */
  lemma MissingValueIsNoArg(c: Cursor, s: ArgSpec, store: Store)
    requires c.Valid() && SpecFits(c.repr, s, store)
    requires c.AtEnd() && s.kind.TakesValue() && s.kind != SubArgsN(0)
    ensures ParseSingleSpec(c, s, store) == Dispatch(NoArg, c, store)
  {
  }

  /** A reading kind reports exactly its typed read's status and move, and stores exactly its value. */
  lemma ReadingKindsFollowTheirRead(c: Cursor, s: ArgSpec, store: Store)
    requires c.Valid() && SpecFits(c.repr, s, store)
    ensures var r := ParseSingleSpec(c, s, store);
            s.kind.Double? && !c.AtEnd() ==>
              var g := GetDouble(c, s.kind.flags);
              r.status == g.status && r.next == g.next && (g.status == Ok ==> r.store[s.target] == RealVal(g.value.value))
    ensures var r := ParseSingleSpec(c, s, store);
            s.kind.Int? ==>
              var g := GetInt(c, s.kind.flags);
              r.status == g.status && r.next == g.next && (g.status == Ok ==> r.store[s.target] == IntVal(g.value.value))
    ensures var r := ParseSingleSpec(c, s, store);
            s.kind.LLong? ==>
              var g := GetLongLong(c, s.kind.flags);
              r.status == g.status && r.next == g.next && (g.status == Ok ==> r.store[s.target] == LongVal(g.value.value))
    ensures var r := ParseSingleSpec(c, s, store);
            s.kind.ULLong? ==>
              var g := GetUnsignedLongLong(c, s.kind.flags);
              r.status == g.status && r.next == g.next && (g.status == Ok ==> r.store[s.target] == ULongVal(g.value.value))
    ensures var r := ParseSingleSpec(c, s, store);
            s.kind.UInt? ==>
              var g := GetUnsigned(c, s.kind.flags);
              r.status == g.status && r.next == g.next && (g.status == Ok ==> r.store[s.target] == UIntVal(g.value.value))
    ensures var r := ParseSingleSpec(c, s, store);
            s.kind.Str? ==>
              var g := GetString(c, NoFlags);
              r.status == g.status && r.next == g.next && (g.status == Ok ==> r.store[s.target] == TextVal(g.value.value))
    ensures var r := ParseSingleSpec(c, s, store);
            s.kind.Buffer? ==>
              var g := GetBuffer(c, NoFlags);
              r.status == g.status && r.next == g.next && (g.status == Ok ==> r.store[s.target] == BufVal(g.value.value))
    ensures var r := ParseSingleSpec(c, s, store);
            s.kind.RString? ==>
              c.repr == HostObject &&
              var g := GetRString(c, NoFlags);
              r.status == g.status && r.next == g.next && (g.status == Ok ==> r.store[s.target] == HandleVal(g.value.value))
    ensures var r := ParseSingleSpec(c, s, store);
            s.kind.SubArgs? ==>
              var g := GetVarArgs(c);
              r.status == g.status && r.next == g.next && (g.status == Ok ==> r.store[s.target] == SubVal(g.value.value))
    ensures var r := ParseSingleSpec(c, s, store);
            s.kind.SubArgsN? ==>
              var g := GetSlice(c, s.kind.len);
              r.status == g.status && r.next == g.next && (g.status == Ok ==> r.store[s.target] == SubVal(g.value.value))
  {
  }

  /**
   * BUFFER goes through the corrected GetBuffer: in host mode it stores the
   * token's characters, where GetBuffer as written hands out the memory of
   * the handle.
   */
  lemma BufferDispatchUsesCorrectedRead(c: Cursor, s: ArgSpec, store: Store)
    requires c.Valid() && SpecFits(c.repr, s, store) && s.kind.Buffer? && !c.AtEnd()
    ensures ParseSingleSpec(c, s, store).status == Ok
    ensures ParseSingleSpec(c, s, store).store[s.target] == BufVal(c.Current().text)
    ensures c.repr == HostObject ==> GetBufferAsWritten(c, NoFlags).value == Some(HandleMemory(c.Current()))
  {
  }

  /** After one dispatch every spec of the table still fits: the one target written kept its shape. */
  lemma DispatchKeepsTableFit(c: Cursor, specs: seq<ArgSpec>, store: Store, i: nat)
    requires c.Valid() && TableFits(c.repr, specs, store) && i < |specs|
    ensures TableFits(c.repr, specs, ParseSingleSpec(c, specs[i], store).store)
  {
    var d := ParseSingleSpec(c, specs[i], store);
    forall j | 0 <= j < |specs|
      ensures SpecFits(c.repr, specs[j], d.store)
    {
      assert SpecFits(c.repr, specs[j], store);
    }
  }

  /**
   * One turn of the interpreter loop, after the name at the current position
   * matched spec i: the dispatch moves past the name, leaves every location
   * that no spec targets alone, and keeps the whole table fitting.
   */
  lemma OneTurn(c: Cursor, specs: seq<ArgSpec>, store: Store, i: nat)
    requires c.Valid() && !c.AtEnd() && TableFits(c.repr, specs, store) && i < |specs|
    ensures var d := ParseSingleSpec(Advance(c).next, specs[i], store);
            && Forward(c, d.next) && c.offset < d.next.offset
            && d.store.Keys == store.Keys && TableFits(c.repr, specs, d.store)
            && (forall l :: l in store && !IsTarget(specs, l) ==> d.store[l] == store[l])
            && (d.status != Ok ==> specs[i].kind.TakesValue())
  {
    var a := Advance(c).next;
    assert SpecFits(a.repr, specs[i], store);
    DispatchKeepsTableFit(a, specs, store, i);
  }

  // ---------------------------------------------------------------------------
  // The interpreter loop

  /** Status, final cursor, final store, and the index of the spec that failed (errSpec). */
  datatype Outcome = Outcome(status: Status, next: Cursor, store: Store, errSpec: Option<nat>)

  /**
   * ParseArgSpec: peek the current token, look it up, consume the name and
   * dispatch the spec, until the arguments run out (Ok), a name is unknown
   * (ENoEnt) or a dispatch fails (its status and the spec's index). What it
   * promises is stated in ParseArgSpecOutcome.
   */
  function ParseArgSpec(c: Cursor, specs: seq<ArgSpec>, store: Store): (r: Outcome)
    requires c.Valid() && TableFits(c.repr, specs, store)
    ensures Forward(c, r.next)
    ensures r.store.Keys == store.Keys && TableFits(c.repr, specs, r.store)
    decreases c.argc - c.offset, 1
  {
    if c.AtEnd() then Outcome(Ok, c, store, None)
    else
      // The peek cannot fail here (see PeekIsInfallible), which is all that
      // keeps the mis-parenthesised `rv = GetString(...) != AC_OK` harmless.
      var peek := GetString(c, NoFlags.Peek());
      var text := peek.value.value;
      match FindSpec(specs, text)
      case None => Outcome(ENoEnt, c, store, None)
      case Some(i) => Turn(c, specs, store, i)
  }

  function Turn(c: Cursor, specs: seq<ArgSpec>, store: Store, i: nat): (r: Outcome)
    requires c.Valid() && !c.AtEnd() && TableFits(c.repr, specs, store) && i < |specs|
    ensures Forward(c, r.next)
    ensures r.store.Keys == store.Keys && TableFits(c.repr, specs, r.store)
    decreases c.argc - c.offset, 0
  {
    // Advance's status is ignored by the source; a token is there, so it succeeds.
    var d := ParseSingleSpec(Advance(c).next, specs[i], store);
    OneTurn(c, specs, store, i);
    if d.status != Ok then Outcome(d.status, d.next, d.store, Some(i))
    else ParseArgSpec(d.next, specs, d.store)
  }

  /**
   * The failure a run `r` started at `c` reports is that of one turn: at a
   * position `m` reached from `c`, the token's first matching spec is the one
   * reported as errSpec, and dispatching it on the store `st` of that moment,
   * after its name, fails with exactly the run's status, cursor and store.
   */
  predicate FailedAfterMatch(c: Cursor, specs: seq<ArgSpec>, m: Cursor, st: Store, r: Outcome) {
    && Forward(c, m) && !m.AtEnd()
    && r.errSpec.Some? && r.errSpec.value < |specs|
    && FindSpec(specs, m.Current().text) == r.errSpec
    && TableFits(m.repr, specs, st)
    && var d := ParseSingleSpec(Advance(m).next, specs[r.errSpec.value], st);
       d.status != Ok && d.status == r.status && d.next == r.next && d.store == r.store
  }

  /**
   * What a run of the interpreter ends in. Ok only once every argument is
   * consumed; ENoEnt with the cursor still on a name no spec knows; any other
   * status is the failing spec's, reported with its index, with what was
   * consumed staying consumed.
   */
  lemma {:induction false} ParseArgSpecOutcome(c: Cursor, specs: seq<ArgSpec>, store: Store)
    requires c.Valid() && TableFits(c.repr, specs, store)
    ensures var r := ParseArgSpec(c, specs, store);
            r.status == Ok ==> r.next.AtEnd() && r.errSpec == None
    ensures var r := ParseArgSpec(c, specs, store);
            r.status == ENoEnt ==>
              && !r.next.AtEnd()
              && FindSpec(specs, r.next.Current().text) == None
              && r.errSpec == None
    ensures var r := ParseArgSpec(c, specs, store);
            r.status != Ok && r.status != ENoEnt ==>
              && r.errSpec.Some?
              && r.errSpec.value < |specs|
              && specs[r.errSpec.value].kind.TakesValue()
              && c.offset < r.next.offset
    decreases c.argc - c.offset, 1
  {
    if !c.AtEnd() {
      match FindSpec(specs, c.Current().text)
      case None =>
      case Some(i) => TurnOutcome(c, specs, store, i);
    }
  }

  lemma {:induction false} TurnOutcome(c: Cursor, specs: seq<ArgSpec>, store: Store, i: nat)
    requires c.Valid() && !c.AtEnd() && TableFits(c.repr, specs, store) && i < |specs|
    ensures var r := Turn(c, specs, store, i);
            r.status == Ok ==> r.next.AtEnd() && r.errSpec == None
    ensures var r := Turn(c, specs, store, i);
            r.status == ENoEnt ==>
              && !r.next.AtEnd()
              && FindSpec(specs, r.next.Current().text) == None
              && r.errSpec == None
    ensures var r := Turn(c, specs, store, i);
            r.status != Ok && r.status != ENoEnt ==>
              && r.errSpec.Some?
              && r.errSpec.value < |specs|
              && specs[r.errSpec.value].kind.TakesValue()
              && c.offset < r.next.offset
    decreases c.argc - c.offset, 0
  {
    var d := ParseSingleSpec(Advance(c).next, specs[i], store);
    OneTurn(c, specs, store, i);
    if d.status == Ok {
      ParseArgSpecOutcome(d.next, specs, d.store);
    }
  }

  /**
   * The failure a run reports is the failure of the spec whose name was just
   * matched: errSpec is that spec's index, and the status, cursor and store
   * are those its dispatch left.
   */
  lemma {:induction false} ParseArgSpecFailureIsATurn(c: Cursor, specs: seq<ArgSpec>, store: Store)
    requires c.Valid() && TableFits(c.repr, specs, store)
    ensures var r := ParseArgSpec(c, specs, store);
            r.errSpec.Some? ==> exists m, st :: FailedAfterMatch(c, specs, m, st, r)
    decreases c.argc - c.offset, 1
  {
    if !c.AtEnd() {
      match FindSpec(specs, c.Current().text)
      case None =>
      case Some(i) => TurnFailureIsATurn(c, specs, store, i);
    }
  }

  lemma {:induction false} TurnFailureIsATurn(c: Cursor, specs: seq<ArgSpec>, store: Store, i: nat)
    requires c.Valid() && !c.AtEnd() && TableFits(c.repr, specs, store) && i < |specs|
    requires FindSpec(specs, c.Current().text) == Some(i)
    ensures var r := Turn(c, specs, store, i);
            r.errSpec.Some? ==> exists m, st :: FailedAfterMatch(c, specs, m, st, r)
    decreases c.argc - c.offset, 0
  {
    var r := Turn(c, specs, store, i);
    var d := ParseSingleSpec(Advance(c).next, specs[i], store);
    OneTurn(c, specs, store, i);
    if d.status == Ok {
      ParseArgSpecFailureIsATurn(d.next, specs, d.store);
      if r.errSpec.Some? {
        var m, st :| FailedAfterMatch(d.next, specs, m, st, r);
        assert FailedAfterMatch(c, specs, m, st, r);
      }
    } else {
      assert FailedAfterMatch(c, specs, c, store, r);
    }
  }

  /** A run writes only to locations some spec of the table targets. */
  lemma {:induction false} ParseArgSpecWritesOnlyTargets(c: Cursor, specs: seq<ArgSpec>, store: Store)
    requires c.Valid() && TableFits(c.repr, specs, store)
    ensures var r := ParseArgSpec(c, specs, store);
            forall l :: l in store && !IsTarget(specs, l) ==> r.store[l] == store[l]
    decreases c.argc - c.offset, 1
  {
    if !c.AtEnd() {
      match FindSpec(specs, c.Current().text)
      case None =>
      case Some(i) => TurnWritesOnlyTargets(c, specs, store, i);
    }
  }

  lemma {:induction false} TurnWritesOnlyTargets(c: Cursor, specs: seq<ArgSpec>, store: Store, i: nat)
    requires c.Valid() && !c.AtEnd() && TableFits(c.repr, specs, store) && i < |specs|
    ensures var r := Turn(c, specs, store, i);
            forall l :: l in store && !IsTarget(specs, l) ==> r.store[l] == store[l]
    decreases c.argc - c.offset, 0
  {
    var d := ParseSingleSpec(Advance(c).next, specs[i], store);
    OneTurn(c, specs, store, i);
    if d.status == Ok {
      ParseArgSpecWritesOnlyTargets(d.next, specs, d.store);
    }
  }

  lemma TableFitsPrefix(repr: Repr, specs: seq<ArgSpec>, extra: seq<ArgSpec>, store: Store)
    requires TableFits(repr, specs + extra, store)
    ensures TableFits(repr, specs, store)
  {
    forall i | 0 <= i < |specs|
      ensures SpecFits(repr, specs[i], store)
    {
      assert (specs + extra)[i] == specs[i];
    }
  }

  /**
   * First match wins: appending specs to a table changes nothing about a run
   * that never met an unknown name, down to the failing spec's index.
   */
  lemma {:induction false} LongerTableSameRun(c: Cursor, specs: seq<ArgSpec>, extra: seq<ArgSpec>, store: Store)
    requires c.Valid() && TableFits(c.repr, specs + extra, store)
    requires (TableFitsPrefix(c.repr, specs, extra, store); ParseArgSpec(c, specs, store).status != ENoEnt)
    ensures ParseArgSpec(c, specs + extra, store) == ParseArgSpec(c, specs, store)
    decreases c.argc - c.offset
  {
    TableFitsPrefix(c.repr, specs, extra, store);
    if !c.AtEnd() {
      var text := c.Current().text;
      FindSpecInLongerTable(specs, extra, text);
      var i := FindSpec(specs, text).value;
      assert (specs + extra)[i] == specs[i];
      var d := ParseSingleSpec(Advance(c).next, specs[i], store);
      if d.status == Ok {
        DispatchKeepsTableFit(Advance(c).next, specs + extra, store, i);
        LongerTableSameRun(d.next, specs, extra, d.store);
      }
    }
  }

  /** Stopping at an unknown name is a resting point: running the same table again from there stops at once. */
  lemma UnknownNameIsARestingPoint(c: Cursor, specs: seq<ArgSpec>, store: Store)
    requires c.Valid() && TableFits(c.repr, specs, store)
    requires ParseArgSpec(c, specs, store).status == ENoEnt
    ensures var r := ParseArgSpec(c, specs, store);
            ParseArgSpec(r.next, specs, r.store) == r
  {
    ParseArgSpecOutcome(c, specs, store);
  }
}

=== FILE: cursor.dfy ===
/*
 * The argument cursor: a forward-only read position over a borrowed, fixed
 * run of tokens, with its positioning primitives and the operations that hand
 * out the current token as text or as a host handle.
 *
 * Every operation is a pure function from the cursor before the call to the
 * status code, the cursor after the call and the value written to the
 * caller's out-parameter (None where the source leaves it untouched).
 */
module Cursors {
  import opened Tokens

  /** The AC_* status codes. */
  datatype Status = Ok | Parse | NoArg | ELimit | ENoEnt

  /** The AC_F_* validation flags a caller passes to a typed read. */
  datatype Flags = Flags(noAdvance: bool, ge0: bool, ge1: bool, coalesce: bool) {
    /** The same flags with AC_F_NOADVANCE added. */
    function Peek(): Flags {
      this.(noAdvance := true)
    }
  }

  const NoFlags := Flags(false, false, false, false)

  /** A decoded number satisfies the AC_F_GE0 / AC_F_GE1 limits the flags ask for. */
  predicate MeetsLimits(f: Flags, x: real) {
    (f.ge0 ==> x >= 0.0) && (f.ge1 ==> x >= 1.0)
  }

  /**
   * The cursor views `argc` tokens of a borrowed backing store, starting at
   * `base` (the `objs` pointer of the source is backing + base); `offset` is
   * the read position within that view.
   */
  datatype Cursor = Cursor(backing: seq<Token>, base: nat, argc: nat, offset: nat, repr: Repr) {
    predicate Valid() {
      base + argc <= |backing| && offset <= argc
    }

    predicate AtEnd() {
      offset == argc
    }

    function NumRemaining(): nat
      requires Valid()
    {
      argc - offset
    }

    /** The tokens this cursor was built over. */
    function Args(): seq<Token>
      requires Valid()
    {
      backing[base..base + argc]
    }

    /** The tokens not yet consumed. */
    function Rest(): seq<Token>
      requires Valid()
    {
      backing[base + offset..base + argc]
    }

    function Current(): Token
      requires Valid() && !AtEnd()
    {
      backing[base + offset]
    }
  }

  /**
   * The cursor only ever moves forward: `b` is a valid cursor over the same
   * tokens in the same representation as `a`, at the same position or further on.
   */
  predicate Forward(a: Cursor, b: Cursor) {
    && b.Valid()
    && a.backing == b.backing && a.base == b.base && a.argc == b.argc && a.repr == b.repr
    && a.offset <= b.offset
  }

  /** Outcome of an operation that only moves the cursor. */
  datatype Step = Step(status: Status, next: Cursor)

  /** Outcome of a read: status, the cursor afterwards, and the value written on success. */
  datatype Read<T> = Read(status: Status, next: Cursor, value: Option<T>)

  // ---------------------------------------------------------------------------
  // Positioning

  function AdvanceBy(c: Cursor, n: nat): (r: Step)
    requires c.Valid()
    ensures Forward(c, r.next)
    ensures r.status == Ok <==> n <= c.NumRemaining()
    ensures r.status != Ok ==> r.status == NoArg && r.next == c
    ensures r.status == Ok ==> r.next.offset == c.offset + n && r.next.Rest() == c.Rest()[n..]
  {
    if c.offset + n > c.argc then Step(NoArg, c) else Step(Ok, c.(offset := c.offset + n))
  }

  /** 2^64: size_t arithmetic is modulo this. */
  const SIZE_T_MODULUS: int := 0x1_0000_0000_0000_0000

  /**
   * AdvanceBy as written: `offset + by` is a size_t sum, so for a `by` close
   * to SIZE_MAX it wraps, passes the bound test and moves the cursor
   * backwards while reporting success. Where it does not wrap it is AdvanceBy.
   */
  function AdvanceByAsWritten(c: Cursor, n: nat): (r: Step)
    requires c.Valid() && c.argc < SIZE_T_MODULUS && n < SIZE_T_MODULUS
    ensures r.next.Valid() && r.next.argc == c.argc && r.next.base == c.base
    ensures c.offset + n < SIZE_T_MODULUS ==> r == AdvanceBy(c, n)
    ensures c.offset > 0 && n >= SIZE_T_MODULUS - c.offset ==>
              r.status == Ok && r.next.offset < c.offset && AdvanceBy(c, n).status == NoArg
  {
    var sum := (c.offset + n) % SIZE_T_MODULUS;
    if sum > c.argc then Step(NoArg, c) else Step(Ok, c.(offset := sum))
  }

  /** One concrete wrap: offset 2 of 5, advanced by 2^64 - 2, lands on offset 0 and reports success. */
  lemma AdvanceByWrapsBackwards(c: Cursor)
    requires c.Valid() && c.argc == 5 && c.offset == 2
    ensures AdvanceByAsWritten(c, SIZE_T_MODULUS - 2) == Step(Ok, c.(offset := 0))
    ensures AdvanceBy(c, SIZE_T_MODULUS - 2) == Step(NoArg, c)
  {
  }

  function Advance(c: Cursor): (r: Step)
    requires c.Valid()
    ensures Forward(c, r.next)
    ensures r.status == Ok <==> !c.AtEnd()
    ensures r.status != Ok ==> r.status == NoArg && r.next == c
    ensures r.status == Ok ==> r.next.offset == c.offset + 1
  {
    AdvanceBy(c, 1)
  }

  /** Moving by m and then by n is moving by m + n: both succeed together and land on the same cursor. */
  lemma AdvanceByAdds(c: Cursor, m: nat, n: nat)
    requires c.Valid()
    ensures var first := AdvanceBy(c, m);
            AdvanceBy(c, m + n).status == Ok <==> first.status == Ok && AdvanceBy(first.next, n).status == Ok
    ensures var first := AdvanceBy(c, m);
            AdvanceBy(c, m + n).status == Ok ==> AdvanceBy(first.next, n).next == AdvanceBy(c, m + n).next
  {
  }

  /** MaybeAdvance: the move a successful read makes, one token unless AC_F_NOADVANCE is set. */
  function MaybeAdvance(c: Cursor, f: Flags): (d: Cursor)
    requires c.Valid() && !c.AtEnd()
    ensures Forward(c, d)
    ensures d.offset == if f.noAdvance then c.offset else c.offset + 1
  {
    if f.noAdvance then c else Advance(c).next
  }

  /**
   * A read with AC_F_NOADVANCE (`peek`) and the same read without it (`full`)
   * agree: the peek stays put, and the full read reports the same status and
   * value and moves exactly one token on success and none on failure.
   */
  predicate PeekThenMove<T(==)>(c: Cursor, peek: Read<T>, full: Read<T>)
    requires c.Valid()
  {
    && peek.next == c
    && full.status == peek.status
    && full.value == peek.value
    && (full.status == Ok ==> !c.AtEnd() && full.next == Advance(c).next)
    && (full.status != Ok ==> full.next == c)
  }

  // ---------------------------------------------------------------------------
  // Reading the current token as text or as a handle

  /** GetString: the current token's text, in either representation. */
  function GetString(c: Cursor, f: Flags): (r: Read<string>)
    requires c.Valid()
    ensures Forward(c, r.next)
    ensures r.status == NoArg <==> c.AtEnd()
    ensures r.status == Ok || r.status == NoArg
    ensures r.status == NoArg ==> r.next == c && r.value == None
    ensures r.status == Ok ==> r.value == Some(c.Current().text) && r.next == MaybeAdvance(c, f)
  {
    if c.offset == c.argc then Read(NoArg, c, None)
    // Generic mode casts the token to its C string, host mode asks
    // RedisModule_StringPtrLen; both yield the token's text.
    else Read(Ok, MaybeAdvance(c, f), Some(c.Current().text))
  }

  /**
   * GetBuffer: the current token as a pointer and an explicit length. In host
   * mode the characters are those RedisModule_StringPtrLen gives, as in
   * GetString; GetBufferAsWritten is the code as it stands.
   */
  function GetBuffer(c: Cursor, f: Flags): (r: Read<string>)
    requires c.Valid()
    ensures Forward(c, r.next)
    ensures r.status == NoArg <==> c.AtEnd()
    ensures r.status == Ok || r.status == NoArg
    ensures r.status == NoArg ==> r.next == c && r.value == None
    ensures r.status == Ok ==> r.value == Some(c.Current().text) && r.next == MaybeAdvance(c, f)
  {
    if c.offset == c.argc then Read(NoArg, c, None)
    else Read(Ok, MaybeAdvance(c, f), Some(c.Current().text))
  }

  /**
   * What GetBuffer hands out as written: in generic mode the token's
   * characters; in host mode CURRENT() is the RedisModuleString handle, so
   * the buffer is the handle object's own memory, whatever strlen finds there.
   */
  datatype Buf = Chars(s: string) | HandleMemory(h: Token)

  /** GetBuffer as written: `SimpleBuff{CURRENT(), strlen(CURRENT())}` in both representations. */
  function GetBufferAsWritten(c: Cursor, f: Flags): (r: Read<Buf>)
    requires c.Valid()
    ensures r.status == NoArg <==> c.AtEnd()
    ensures r.status == NoArg ==> r.next == c && r.value == None
    ensures r.status == Ok ==> r.next == MaybeAdvance(c, f)
    ensures r.status == Ok && c.repr == Generic ==> r.value == Some(Chars(c.Current().text))
    ensures r.status == Ok && c.repr == HostObject ==> r.value == Some(HandleMemory(c.Current()))
  {
    if c.offset == c.argc then Read(NoArg, c, None)
    else if c.repr == Generic then Read(Ok, MaybeAdvance(c, f), Some(Chars(c.Current().text)))
    else Read(Ok, MaybeAdvance(c, f), Some(HandleMemory(c.Current())))
  }

  /**
   * The corrected GetBuffer agrees with the code as written in generic mode;
   * in host mode the code as written hands out the handle's memory, never the
   * token's characters.
   */
  lemma BufferDiffersInHostMode(c: Cursor, f: Flags)
    requires c.Valid()
    ensures var w := GetBufferAsWritten(c, f);
            var g := GetBuffer(c, f);
            && w.status == g.status && w.next == g.next
            && (c.repr == Generic && g.status == Ok ==> w.value == Some(Chars(g.value.value)))
            && (c.repr == HostObject && g.status == Ok ==> w.value != Some(Chars(g.value.value)))
  {
  }

  /** GetStringNC: the text of the current token and a move past it, or None at the end. */
  function GetStringNC(c: Cursor): (r: (Option<string>, Cursor))
    requires c.Valid()
    ensures Forward(c, r.1)
    ensures r.0 == None <==> c.AtEnd()
    ensures r.0 == None ==> r.1 == c
    ensures r.0 != None ==> r.0.value == c.Current().text && r.1.offset == c.offset + 1
  {
    var g := GetString(c, NoFlags);
    if g.status != Ok then (None, c) else (g.value, g.next)
  }

  /** GetStringNC is GetString with no flags, its NOARG turned into no text. */
  lemma GetStringNCIsGetString(c: Cursor)
    requires c.Valid()
    ensures var g := GetString(c, NoFlags);
            && GetStringNC(c).0 == g.value
            && GetStringNC(c).1 == g.next
            && (g.status == Ok <==> GetStringNC(c).0.Some?)
  {
  }

  /** GetRString: the current token's host handle itself; only a host-mode cursor may be asked. */
  function GetRString(c: Cursor, f: Flags): (r: Read<Token>)
    requires c.Valid() && c.repr == HostObject
    ensures Forward(c, r.next)
    ensures r.status == NoArg <==> c.AtEnd()
    ensures r.status == Ok || r.status == NoArg
    ensures r.status == NoArg ==> r.next == c && r.value == None
    ensures r.status == Ok ==> r.value == Some(c.Current()) && r.next == MaybeAdvance(c, f)
  {
    if c.offset == c.argc then Read(NoArg, c, None)
    else Read(Ok, MaybeAdvance(c, f), Some(c.Current()))
  }

  /**
   * The AC_F_NOADVANCE peek that AdvanceIfMatch and the spec-table loop rely
   * on cannot fail while a token remains, and does not move the cursor.
   */
  lemma PeekIsInfallible(c: Cursor, f: Flags)
    requires c.Valid() && !c.AtEnd() && f.noAdvance
    ensures GetString(c, f).status == Ok
    ensures GetString(c, f).next == c
    ensures GetString(c, f).value == Some(c.Current().text)
  {
  }

  /**
   * AdvanceIfMatch: consume the current token when it equals `s` ignoring
   * case, as strcasecmp compares them: up to the first NUL of each. For
   * NUL-free texts that is the whole text.
   */
  function AdvanceIfMatch(c: Cursor, s: string): (r: (bool, Cursor))
    requires c.Valid()
    ensures Forward(c, r.1)
    ensures c.AtEnd() ==> !r.0
    ensures !c.AtEnd() ==> (r.0 <==> EqualsIgnoreCase(CString(s), CString(c.Current().text)))
    ensures !c.AtEnd() && '\0' !in s && '\0' !in c.Current().text ==>
              (r.0 <==> EqualsIgnoreCase(s, c.Current().text))
    ensures r.0 ==> r.1.offset == c.offset + 1
    ensures !r.0 ==> r.1 == c
  {
    if c.AtEnd() then (false, c)
    else
      var peek := GetString(c, NoFlags.Peek());
      var cur := peek.value.value;
      if EqualsIgnoreCase(CString(s), CString(cur)) then (true, Advance(c).next) else (false, c)
  }
}

=== FILE: numeric.dfy ===
/*
 * Typed numeric reads of the argument cursor: GetDouble, the integer read
 * GetLongLong with its "integer first, then a double" coercion, and the
 * range-checked integer variants built on it.
 */
module Numeric {
  import opened Tokens
  import opened Cursors

  const INT_MIN: int := -0x8000_0000
  const INT_MAX: int := 0x7fff_ffff
  const UINT_MAX: int := 0xffff_ffff
  const UINT32_MAX: int := 0xffff_ffff
  const LLONG_MAX: int := 0x7fff_ffff_ffff_ffff
  const UINT64_MAX: int := 0xffff_ffff_ffff_ffff
  const SIZE_MAX: int := 0xffff_ffff_ffff_ffff

  /**
   * GetDouble. It reads the token at `offset` without first asking whether
   * one is there, so its callers must make sure one is.
   */
  function GetDouble(c: Cursor, f: Flags): (r: Read<real>)
    requires c.Valid() && !c.AtEnd()
    ensures Forward(c, r.next)
    ensures r.status == Ok || r.status == Parse || r.status == ELimit
    ensures r.status == Parse <==> RealOf(c.repr, c.Current()).None?
    ensures r.status == ELimit <==>
              RealOf(c.repr, c.Current()).Some? && !MeetsLimits(f, RealOf(c.repr, c.Current()).value)
    ensures r.status != Ok ==> r.next == c && r.value == None
    ensures r.status == Ok ==> r.value == RealOf(c.repr, c.Current()) && r.next == MaybeAdvance(c, f)
    ensures r.status == Ok ==> MeetsLimits(f, r.value.value)
  {
    match RealOf(c.repr, c.Current())
    case None => Read(Parse, c, None)
    case Some(d) =>
      if f.ge0 && d < 0.0 then Read(ELimit, c, None)
      else if f.ge1 && d < 1.0 then Read(ELimit, c, None)
      else Read(Ok, MaybeAdvance(c, f), Some(d))
  }

  /**
   * tryReadAsDouble: the fallback of the integer read. The caller's flags,
   * limits included, travel into GetDouble, so a double that breaks a limit
   * comes back as a parse failure (None) rather than a limit failure.
   */
  function TryReadAsDouble(c: Cursor, f: Flags): (r: Option<int>)
    requires c.Valid() && !c.AtEnd()
    ensures var d := RealOf(c.repr, c.Current());
            r.Some? <==> d.Some? && MeetsLimits(f, d.value) && (f.coalesce || IsIntegral(d.value))
    ensures var d := RealOf(c.repr, c.Current());
            r.Some? ==> r.value == Trunc(d.value) && (IsIntegral(d.value) ==> r.value as real == d.value)
  {
    var rd := GetDouble(c, f.Peek());
    if rd.status != Ok then None
    else
      var d := rd.value.value;
      TruncExactIffIntegral(d);
      if f.coalesce then Some(Trunc(d))
      else if Trunc(d) as real != d then None
      else Some(Trunc(d))
  }

  /**
   * GetLongLong: at the end NoArg; otherwise the token read as an integer, or
   * failing that as a double that is whole (or any double under
   * AC_F_COALESCE, truncated); then the limits; the cursor moves only on
   * success.
   */
  function GetLongLong(c: Cursor, f: Flags): (r: Read<int>)
    requires c.Valid()
    ensures Forward(c, r.next)
    ensures r.status == NoArg <==> c.AtEnd()
    ensures r.status == Ok || r.status == NoArg || r.status == Parse || r.status == ELimit
    ensures r.status != Ok ==> r.next == c && r.value == None
    ensures r.status == Ok ==> r.value.Some? && MeetsLimits(f, r.value.value as real) && r.next == MaybeAdvance(c, f)
    // a token that is an integer is used as it is; only the limits can reject it
    ensures !c.AtEnd() && IntOf(c.repr, c.Current()).Some? ==>
              var v := IntOf(c.repr, c.Current()).value;
              if MeetsLimits(f, v as real) then r.status == Ok && r.value == Some(v) else r.status == ELimit
    // otherwise the token must read as a double
    ensures !c.AtEnd() && IntOf(c.repr, c.Current()).None? && RealOf(c.repr, c.Current()).None? ==>
              r.status == Parse
    ensures !c.AtEnd() && IntOf(c.repr, c.Current()).None? && RealOf(c.repr, c.Current()).Some? ==>
              var d := RealOf(c.repr, c.Current()).value;
              if !MeetsLimits(f, d) then r.status == Parse
              else if !f.coalesce && !IsIntegral(d) then r.status == Parse
              else if MeetsLimits(f, Trunc(d) as real) then r.status == Ok && r.value == Some(Trunc(d))
              else r.status == ELimit
  {
    if c.offset == c.argc then Read(NoArg, c, None)
    else
      var direct := IntOf(c.repr, c.Current());
      var n := if direct.Some? then direct else TryReadAsDouble(c, f);
      if n.None? then Read(Parse, c, None)
      else if f.ge0 && n.value < 0 then Read(ELimit, c, None)
      else if f.ge1 && n.value < 1 then Read(ELimit, c, None)
      else Read(Ok, MaybeAdvance(c, f), n)
  }

  /**
   * A limit failure of GetLongLong always comes from a token that parsed
   * directly as an integer: a double that passed the limits still passes
   * them once truncated, and one that failed them was reported as Parse.
   */
  lemma LimitFailureMeansDirectInteger(c: Cursor, f: Flags)
    requires c.Valid()
    requires GetLongLong(c, f).status == ELimit
    ensures IntOf(c.repr, c.Current()).Some?
    ensures !MeetsLimits(f, IntOf(c.repr, c.Current()).value as real)
  {
  }

  lemma LongLongIgnoresNoAdvance(c: Cursor, f: Flags)
    requires c.Valid()
    ensures GetLongLong(c, f.Peek()).status == GetLongLong(c, f).status
    ensures GetLongLong(c, f.Peek()).value == GetLongLong(c, f).value
  {
  }

  /**
   * GetInteger<T, lo, hi, unsigned>: GetLongLong, with AC_F_GE0 added for
   * unsigned targets, peeked without moving, then a range check against the
   * target type; the move happens only once the value is known to fit.
   * (The template's text is not part of this model; this is its assumed form.)
   */
  function GetInteger(c: Cursor, f: Flags, lo: int, hi: int, unsigned: bool): (r: Read<int>)
    requires c.Valid()
    ensures Forward(c, r.next)
    ensures r.status == NoArg <==> c.AtEnd()
    ensures r.status == Ok || r.status == NoArg || r.status == Parse || r.status == ELimit
    ensures r.status != Ok ==> r.next == c && r.value == None
    ensures r.status == Ok ==> r.value.Some? && lo <= r.value.value <= hi && r.next == MaybeAdvance(c, f)
    ensures r.status == Ok ==> MeetsLimits(f, r.value.value as real) && (unsigned ==> r.value.value >= 0)
    ensures var w := GetLongLong(c, f.(ge0 := f.ge0 || unsigned));
            w.status != Ok ==> r.status == w.status
    ensures var w := GetLongLong(c, f.(ge0 := f.ge0 || unsigned));
            w.status == Ok ==> (r.status == Ok <==> lo <= w.value.value <= hi) && (r.status == Ok ==> r.value == w.value)
  {
    var g := f.(ge0 := f.ge0 || unsigned);
    LongLongIgnoresNoAdvance(c, g);
    var w := GetLongLong(c, g.Peek());
    if w.status != Ok then Read(w.status, c, None)
    else if w.value.value > hi || w.value.value < lo then Read(ELimit, c, None)
    else Read(Ok, MaybeAdvance(c, f), w.value)
  }

  function GetInt(c: Cursor, f: Flags): (r: Read<int>)
    requires c.Valid()
    ensures Forward(c, r.next)
    ensures r.status == Ok ==> r.value.Some? && INT_MIN <= r.value.value <= INT_MAX
    ensures r.status != Ok ==> r.next == c
  {
    GetInteger(c, f, INT_MIN, INT_MAX, false)
  }

  function GetUnsigned(c: Cursor, f: Flags): (r: Read<int>)
    requires c.Valid()
    ensures Forward(c, r.next)
    ensures r.status == Ok ==> r.value.Some? && 0 <= r.value.value <= UINT_MAX
    ensures r.status != Ok ==> r.next == c
  {
    GetInteger(c, f, 0, UINT_MAX, true)
  }

  function GetUnsignedLongLong(c: Cursor, f: Flags): (r: Read<int>)
    requires c.Valid()
    ensures Forward(c, r.next)
    ensures r.status == Ok ==> r.value.Some? && 0 <= r.value.value <= LLONG_MAX
    ensures r.status != Ok ==> r.next == c
  {
    GetInteger(c, f, 0, LLONG_MAX, true)
  }

  function GetU32(c: Cursor, f: Flags): (r: Read<int>)
    requires c.Valid()
    ensures Forward(c, r.next)
    ensures r.status == Ok ==> r.value.Some? && 0 <= r.value.value <= UINT32_MAX
    ensures r.status != Ok ==> r.next == c
  {
    GetInteger(c, f, 0, UINT32_MAX, true)
  }

  function GetU64(c: Cursor, f: Flags): (r: Read<int>)
    requires c.Valid()
    ensures Forward(c, r.next)
    ensures r.status == Ok ==> r.value.Some? && 0 <= r.value.value <= UINT64_MAX
    ensures r.status != Ok ==> r.next == c
  {
    GetInteger(c, f, 0, UINT64_MAX, true)
  }

  function GetSize(c: Cursor, f: Flags): (r: Read<int>)
    requires c.Valid()
    ensures Forward(c, r.next)
    ensures r.status == Ok ==> r.value.Some? && 0 <= r.value.value <= SIZE_MAX
    ensures r.status != Ok ==> r.next == c
  {
    GetInteger(c, f, 0, SIZE_MAX, true)
  }

  /**
   * AC_F_NOADVANCE changes nothing but the move: a peek stays put (so it can
   * be repeated with the same answer) and the ordinary read is the peek
   * followed by one move on success. NoAdvanceString states it for the
   * three text reads, and NoAdvanceLongLong, NoAdvanceInteger (every integer
   * variant) and NoAdvanceDouble for the numeric ones.
   */
  lemma NoAdvanceString(c: Cursor, f: Flags)
    requires c.Valid()
    ensures PeekThenMove(c, GetString(c, f.Peek()), GetString(c, f.(noAdvance := false)))
    ensures PeekThenMove(c, GetBuffer(c, f.Peek()), GetBuffer(c, f.(noAdvance := false)))
    ensures c.repr == HostObject ==>
              PeekThenMove(c, GetRString(c, f.Peek()), GetRString(c, f.(noAdvance := false)))
  {
  }

  lemma NoAdvanceLongLong(c: Cursor, f: Flags)
    requires c.Valid()
    ensures PeekThenMove(c, GetLongLong(c, f.Peek()), GetLongLong(c, f.(noAdvance := false)))
  {
  }

  lemma NoAdvanceInteger(c: Cursor, f: Flags, lo: int, hi: int, unsigned: bool)
    requires c.Valid()
    ensures PeekThenMove(c, GetInteger(c, f.Peek(), lo, hi, unsigned),
                            GetInteger(c, f.(noAdvance := false), lo, hi, unsigned))
  {
  }

  lemma NoAdvanceDouble(c: Cursor, f: Flags)
    requires c.Valid() && !c.AtEnd()
    ensures PeekThenMove(c, GetDouble(c, f.Peek()), GetDouble(c, f.(noAdvance := false)))
  {
  }
}

=== FILE: scenarios.dfy ===
/*
 * What the cursor does on small concrete argument vectors, each stated as a
 * lemma over literal tokens.
 */
module Scenarios {
  import opened Tokens
  import opened Cursors
  import opened Numeric
  import opened Slices
  import opened ArgSpecs

  const Coalesce := NoFlags.(coalesce := true)
  const AtLeastOne := NoFlags.(ge1 := true)

  // ---------------------------------------------------------------------------
  // The number parsers on the tokens used below

  lemma ParsesWholeNumbers()
    ensures DecimalInt("42") == Some(42)
    ensures DecimalInt("-1") == Some(-1)
    ensures DecimalInt("0") == Some(0)
    ensures DecimalInt("2") == Some(2)
    ensures DecimalInt("5") == Some(5)
  {
    assert "42"[..1] == "4";
    assert SplitSign("-1") == (true, "1");
  }

  lemma ParsesThreePointZero()
    ensures DecimalInt("3.00") == None && DecimalReal("3.00") == Some(3.0)
  {
    assert !AllDigits("3.00") by { assert !IsDigit("3.00"[1]); }
    assert SplitSign("3.00") == (false, "3.00");
    assert DotIndex("3.00") == 1;
    assert "3.00"[..1] == "3" && "3.00"[2..] == "00" && "00"[..1] == "0";
    assert DigitsValue("3") == 3 && DigitsValue("00") == 0 && Pow10(2) == 100;
  }

  lemma ParsesThreePointOneFour()
    ensures DecimalInt("3.14") == None && DecimalReal("3.14") == Some(3.14)
  {
    assert !AllDigits("3.14") by { assert !IsDigit("3.14"[1]); }
    assert SplitSign("3.14") == (false, "3.14");
    assert DotIndex("3.14") == 1;
    assert "3.14"[..1] == "3" && "3.14"[2..] == "14" && "14"[..1] == "1";
    assert DigitsValue("3") == 3 && DigitsValue("14") == 14 && Pow10(2) == 100;
  }

  lemma ParsesOneDigitFractions()
    ensures DecimalInt("0.5") == None && DecimalReal("0.5") == Some(0.5)
    ensures DecimalInt("1.0") == None && DecimalReal("1.0") == Some(1.0)
    ensures DecimalInt("0.0") == None && DecimalReal("0.0") == Some(0.0)
  {
    ParsesPointFive();
    ParsesOnePointZero();
    ParsesZeroPointZero();
  }

  lemma ParsesPointFive()
    ensures DecimalInt("0.5") == None && DecimalReal("0.5") == Some(0.5)
  {
    assert !AllDigits("0.5") by { assert !IsDigit("0.5"[1]); }
    assert SplitSign("0.5") == (false, "0.5");
    assert DotIndex("0.5") == 1;
    assert "0.5"[..1] == "0" && "0.5"[2..] == "5";
    assert DigitsValue("0") == 0 && DigitsValue("5") == 5 && Pow10(1) == 10;
  }

  lemma ParsesOnePointZero()
    ensures DecimalInt("1.0") == None && DecimalReal("1.0") == Some(1.0)
  {
    assert !AllDigits("1.0") by { assert !IsDigit("1.0"[1]); }
    assert SplitSign("1.0") == (false, "1.0");
    assert DotIndex("1.0") == 1;
    assert "1.0"[..1] == "1" && "1.0"[2..] == "0";
    assert DigitsValue("1") == 1 && DigitsValue("0") == 0 && Pow10(1) == 10;
  }

  lemma ParsesZeroPointZero()
    ensures DecimalInt("0.0") == None && DecimalReal("0.0") == Some(0.0)
  {
    assert !AllDigits("0.0") by { assert !IsDigit("0.0"[1]); }
    assert SplitSign("0.0") == (false, "0.0");
    assert DotIndex("0.0") == 1;
    assert "0.0"[..1] == "0" && "0.0"[2..] == "0";
    assert DigitsValue("0") == 0 && Pow10(1) == 10;
  }

  // ---------------------------------------------------------------------------
  // Typed reads, at any position of any generic-mode cursor

  /** "42" read as an int is 42, and the cursor moves past it. */
  lemma ReadsFortyTwo(c: Cursor)
    requires c.Valid() && !c.AtEnd() && c.repr == Generic && c.Current() == Token("42")
    ensures GetInt(c, NoFlags) == Read(Ok, Advance(c).next, Some(42))
  {
    ParsesWholeNumbers();
  }

  /** A double with nothing after the point is accepted as an integer. */
  lemma WholeDoubleIsAnInteger(c: Cursor)
    requires c.Valid() && !c.AtEnd() && c.repr == Generic && c.Current() == Token("3.00")
    ensures GetInt(c, NoFlags) == Read(Ok, Advance(c).next, Some(3))
  {
    ParsesThreePointZero();
    assert IsIntegral(3.0) && Trunc(3.0) == 3;
  }

  /** A fraction is refused as an integer, unless AC_F_COALESCE asks for truncation. */
  lemma FractionNeedsCoalesce(c: Cursor)
    requires c.Valid() && !c.AtEnd() && c.repr == Generic && c.Current() == Token("3.14")
    ensures GetInt(c, NoFlags) == Read(Parse, c, None)
    ensures GetInt(c, Coalesce) == Read(Ok, Advance(c).next, Some(3))
  {
    ParsesThreePointOneFour();
    assert !IsIntegral(3.14) && Trunc(3.14) == 3;
  }

  /** An unsigned read of "-1" is a limit failure: the unsigned target adds AC_F_GE0. */
  lemma NegativeUnsignedIsLimit(c: Cursor)
    requires c.Valid() && !c.AtEnd() && c.repr == Generic && c.Current() == Token("-1")
    ensures GetUnsigned(c, NoFlags) == Read(ELimit, c, None)
  {
    ParsesWholeNumbers();
  }

  /** AC_F_GE1 on a double: 0.5 is below the limit, 1.0 meets it. */
  lemma DoubleLimits(c: Cursor, d: Cursor)
    requires c.Valid() && !c.AtEnd() && c.repr == Generic && c.Current() == Token("0.5")
    requires d.Valid() && !d.AtEnd() && d.repr == Generic && d.Current() == Token("1.0")
    ensures GetDouble(c, AtLeastOne) == Read(ELimit, c, None)
    ensures GetDouble(d, AtLeastOne) == Read(Ok, Advance(d).next, Some(1.0))
  {
    ParsesOneDigitFractions();
  }

  /**
   * The same value breaking AC_F_GE1 is a limit failure written as an integer
   * but a parse failure written as a double, because the double fallback
   * checks the limits itself.
   */
  lemma LimitCodeDependsOnSpelling(c: Cursor, d: Cursor)
    requires c.Valid() && !c.AtEnd() && c.repr == Generic && c.Current() == Token("0")
    requires d.Valid() && !d.AtEnd() && d.repr == Generic && d.Current() == Token("0.0")
    ensures GetLongLong(c, AtLeastOne).status == ELimit
    ensures GetLongLong(d, AtLeastOne).status == Parse
  {
    ParsesWholeNumbers();
    ParsesOneDigitFractions();
  }

  /** strtoll reads an empty C string as 0 with nothing left over; the host's parser refuses it. */
  lemma EmptyTokenByRepresentation(c: Cursor)
    requires c.Valid() && !c.AtEnd() && c.Current() == Token("")
    ensures c.repr == Generic ==> GetLongLong(c, NoFlags) == Read(Ok, Advance(c).next, Some(0))
    ensures c.repr == HostObject ==> GetLongLong(c, NoFlags) == Read(Parse, c, None)
  {
    assert SplitSign("") == (false, "");
    assert DecimalInt("") == None && DecimalReal("") == None;
  }

  // ---------------------------------------------------------------------------
  // Matching, slicing and the spec table

  lemma MatchingNames(c: Cursor)
    requires c.Valid()
    ensures !c.AtEnd() && c.Current() == Token("foo") ==> AdvanceIfMatch(c, "FOO") == (true, Advance(c).next)
    ensures !c.AtEnd() && c.Current() == Token("bar") ==> AdvanceIfMatch(c, "FOO") == (false, c)
    ensures c.AtEnd() ==> AdvanceIfMatch(c, "FOO") == (false, c)
  {
    assert EqualsIgnoreCase("FOO", "foo");
    assert !EqualsIgnoreCase("FOO", "bar") by {
      assert Lower("FOO"[0]) != Lower("bar"[0]);
    }
  }

  /**
   * A token with a NUL at k matches a NUL-free name that equals, ignoring
   * case, the part before the NUL: strcasecmp stops at the NUL.
   */
  lemma NulEndsTheComparison(c: Cursor, s: string, k: nat)
    requires c.Valid() && !c.AtEnd() && '\0' !in s
    requires k < |c.Current().text| && c.Current().text[k] == '\0' && '\0' !in c.Current().text[..k]
    requires EqualsIgnoreCase(s, c.Current().text[..k])
    ensures AdvanceIfMatch(c, s) == (true, Advance(c).next)
  { }

  /** "foo\0bar" matches "FOO" and is consumed. */
  lemma NulInAHostToken(c: Cursor)
    requires c.Valid() && !c.AtEnd() && c.Current() == Token("foo\0bar")
    ensures AdvanceIfMatch(c, "FOO") == (true, Advance(c).next)
  {
    var t := c.Current().text;
    assert t[3] == '\0' && t[..3] == "foo";
    assert EqualsIgnoreCase("FOO", "foo");
    NulEndsTheComparison(c, "FOO", 3);
  }

  /** "2 a b c": the group is ["a", "b"] and the parent stops on "c". */
  lemma CountedGroup(c: Cursor)
    requires c.Valid() && c.repr == Generic
    requires c.Rest() == [Token("2"), Token("a"), Token("b"), Token("c")]
    ensures var r := GetVarArgs(c);
            && r.status == Ok
            && r.value.value.Args() == [Token("a"), Token("b")]
            && r.next.offset == c.offset + 3
            && r.next.Rest() == [Token("c")]
  {
    ParsesWholeNumbers();
    assert c.Current() == c.Rest()[0];
    var k := GetUnsigned(c, NoFlags);
    assert k == Read(Ok, Advance(c).next, Some(2));
    VarArgsTakesCountedGroup(c);
    var r := GetVarArgs(c);
    assert r.next.Rest() == c.Rest()[3..];
  }

  /** The first turn of "COUNT 5 BADFLAG": COUNT is found and takes 5. */
  lemma CountTakesFive(c: Cursor, store: Store)
    requires c.Valid() && c.repr == Generic && 0 in store && store[0].UIntVal?
    requires c.Rest() == [Token("COUNT"), Token("5"), Token("BADFLAG")]
    ensures var specs := [ArgSpec("COUNT", UInt(NoFlags), 0)];
            && !c.AtEnd() && FindSpec(specs, c.Current().text) == Some(0)
            && SpecFits(c.repr, specs[0], store)
            && var c1 := Advance(c).next;
               ParseSingleSpec(c1, specs[0], store) == Dispatch(Ok, Advance(c1).next, store[0 := UIntVal(5)])
  {
    ParsesWholeNumbers();
    var specs := [ArgSpec("COUNT", UInt(NoFlags), 0)];
    assert c.Current() == c.Rest()[0];
    assert FindSpec(specs, "COUNT") == Some(0);
    var c1 := Advance(c).next;
    assert c1.Current() == c.Rest()[1];
    var g := GetUnsigned(c1, NoFlags);
    assert g == Read(Ok, Advance(c1).next, Some(5));
    ReadingKindsFollowTheirRead(c1, specs[0], store);
  }

  /** "COUNT 5 BADFLAG" against { COUNT: unsigned }: COUNT takes 5, then BADFLAG is unknown. */
  lemma UnknownArgumentStopsThere(c: Cursor, store: Store)
    requires c.Valid() && c.repr == Generic && 0 in store && store[0].UIntVal?
    requires c.Rest() == [Token("COUNT"), Token("5"), Token("BADFLAG")]
    ensures var specs := [ArgSpec("COUNT", UInt(NoFlags), 0)];
            TableFits(c.repr, specs, store) &&
            var r := ParseArgSpec(c, specs, store);
            && r.status == ENoEnt
            && r.next.offset == c.offset + 2
            && r.next.Rest() == [Token("BADFLAG")]
            && r.store == store[0 := UIntVal(5)]
            && r.errSpec == None
  {
    var specs := [ArgSpec("COUNT", UInt(NoFlags), 0)];
    CountTakesFive(c, store);
    var c2 := Advance(Advance(c).next).next;
    assert c2.Current() == c.Rest()[2];
    assert FindSpec(specs, "BADFLAG") == None;
    assert ParseArgSpec(c2, specs, store[0 := UIntVal(5)]) == Outcome(ENoEnt, c2, store[0 := UIntVal(5)], None);
    assert c2.Rest() == c.Rest()[2..];
  }

  /**
   * A double spec whose name is the last token: the name matches, Advance
   * leaves the cursor at its end, and that is the cursor args.c hands to
   * GetDouble, which reads the token at `offset` without asking whether one
   * is there (GetDouble's precondition !AtEnd() fails). The model reports
   * NoArg for the spec instead.
   */
  lemma DoubleSpecWithoutValue(c: Cursor, store: Store)
    requires c.Valid() && 0 in store && store[0].RealVal?
    requires c.Rest() == [Token("ALPHA")]
    ensures var specs := [ArgSpec("alpha", Double(NoFlags), 0)];
            && FindSpec(specs, c.Current().text) == Some(0)
            && Advance(c).status == Ok
            && Advance(c).next.AtEnd()
    ensures var specs := [ArgSpec("alpha", Double(NoFlags), 0)];
            TableFits(c.repr, specs, store) &&
            var r := ParseArgSpec(c, specs, store);
            r == Outcome(NoArg, Advance(c).next, store, Some(0))
  {
    var specs := [ArgSpec("alpha", Double(NoFlags), 0)];
    assert SpecFits(c.repr, specs[0], store);
    assert c.Current() == c.Rest()[0];
    assert EqualsIgnoreCase("alpha", "ALPHA");
    assert FindSpec(specs, "ALPHA") == Some(0);
    MissingValueIsNoArg(Advance(c).next, specs[0], store);
  }
}

=== FILE: slices.dfy ===
/*
 * Sub-cursors: GetSlice peels the next n tokens off into a cursor of their
 * own over the same storage, and GetVarArgs does so for a group announced by
 * a leading count, "<N> <arg1> ... <argN>".
 */
module Slices {
  import opened Tokens
  import opened Cursors
  import opened Numeric

  /** Position i of the backing store is one the cursor still has to read. */
  predicate Unread(c: Cursor, i: int) {
    c.base + c.offset <= i < c.base + c.argc
  }

  /** Position i of the backing store is inside the cursor's view. */
  predicate Views(c: Cursor, i: int) {
    c.base <= i < c.base + c.argc
  }

  /**
   * GetSlice: fails with NoArg, changing nothing, when fewer than n tokens
   * remain; otherwise the sub-cursor views exactly the next n tokens of the
   * same storage from its own start, and the parent moves past them.
   */
  function GetSlice(c: Cursor, n: nat): (r: Read<Cursor>)
    requires c.Valid()
    ensures Forward(c, r.next)
    ensures r.status == Ok || r.status == NoArg
    ensures r.status == NoArg <==> n > c.NumRemaining()
    ensures r.status == NoArg ==> r.next == c && r.value == None
    ensures r.status == Ok ==> r.value.Some? && r.next.offset == c.offset + n
    ensures r.status == Ok ==>
              var sub := r.value.value;
              && sub.Valid()
              && sub.backing == c.backing && sub.base == c.base + c.offset
              && sub.argc == n && sub.offset == 0 && sub.repr == c.repr
              && sub.Args() == c.Rest()[..n]
  {
    if n > c.NumRemaining() then Read(NoArg, c, None)
    else
      var sub := Cursor(c.backing, c.base + c.offset, n, 0, c.repr);
      assert sub.Args() == c.Rest()[..n] by {
        var lo := c.base + c.offset;
        assert sub.Args() == c.backing[lo..lo + n];
        forall k | 0 <= k < n
          ensures c.Rest()[..n][k] == c.backing[lo + k]
        {
        }
      }
      Read(Ok, AdvanceBy(c, n).next, Some(sub))
  }

  /**
   * After a slice nothing is read twice and nothing is lost: the sub-cursor's
   * tokens followed by what the parent still has are what the parent had, and
   * the positions they read from are disjoint.
   */
  lemma SliceSplitsTheRest(c: Cursor, n: nat)
    requires c.Valid() && GetSlice(c, n).status == Ok
    ensures var r := GetSlice(c, n);
            r.value.value.Args() + r.next.Rest() == c.Rest()
    ensures var r := GetSlice(c, n);
            forall i :: Views(r.value.value, i) ==> !Unread(r.next, i)
    ensures var r := GetSlice(c, n);
            forall i :: Unread(c, i) <==> Views(r.value.value, i) || Unread(r.next, i)
  {
    var r := GetSlice(c, n);
    var sub := r.value.value;
    assert sub.Args() + r.next.Rest() == c.Rest() by {
      assert c.Rest() == c.Rest()[..n] + c.Rest()[n..];
    }
  }

  /**
   * GetVarArgs: reads an unsigned count, then slices that many tokens. A
   * failed count read is returned as it is, cursor untouched; a count larger
   * than what follows is NoArg with the count itself already consumed.
   */
  function GetVarArgs(c: Cursor): (r: Read<Cursor>)
    requires c.Valid()
    ensures Forward(c, r.next)
    ensures var k := GetUnsigned(c, NoFlags);
            k.status != Ok ==> r.status == k.status && r.next == c && r.value == None
    ensures var k := GetUnsigned(c, NoFlags);
            k.status == Ok ==>
              && k.value.Some?
              && (r.status == Ok <==> 1 + k.value.value <= c.NumRemaining())
              && (r.status != Ok ==> r.status == NoArg && r.next.offset == c.offset + 1 && r.value == None)
              && (r.status == Ok ==> r.value.Some? && r.value.value.argc == k.value.value)
  {
    var k := GetUnsigned(c, NoFlags);
    if k.status != Ok then Read(k.status, c, None)
    else GetSlice(k.next, k.value.value)
  }

  /** A successful GetVarArgs hands out exactly the N tokens after the count N and moves past all N + 1. */
  lemma VarArgsTakesCountedGroup(c: Cursor)
    requires c.Valid() && GetVarArgs(c).status == Ok
    ensures var r := GetVarArgs(c);
            var sub := r.value.value;
            && sub.Valid() && sub.offset == 0 && sub.repr == c.repr && sub.backing == c.backing
            && 1 + sub.argc <= c.NumRemaining()
            && sub.Args() == c.Rest()[1..1 + sub.argc]
            && r.next.offset == c.offset + 1 + sub.argc
  {
    var k := GetUnsigned(c, NoFlags);
    assert k.next.Rest() == c.Rest()[1..];
  }
}

=== FILE: tokens.dfy ===
/*
 * Tokens of an argument vector, and the two host services the cursor asks of
 * them: a case-insensitive text comparison (strcasecmp / strncasecmp in the
 * "C" locale) and the decimal number parsers that stand in for strtoll,
 * strtod, RedisModule_StringToLongLong and RedisModule_StringToDouble.
 */
module Tokens {

  datatype Option<T> = None | Some(value: T)

  /** How a cursor dereferences its tokens: plain C strings, or host-owned string handles. */
  datatype Repr = Generic | HostObject

  /** One argument. Both representations expose the same text; a host handle is the token itself. */
  datatype Token = Token(text: string)

  // ---------------------------------------------------------------------------
  // Case-insensitive comparison

  /** ASCII lower-casing, as tolower in the "C" locale. */
  function Lower(ch: char): char {
    if 'A' <= ch <= 'Z' then (ch as int + 32) as char else ch
  }

  /** The string with every letter lower-cased, as strcasecmp sees it. */
  function LowerAll(s: string): (l: string)
    ensures |l| == |s| && forall i :: 0 <= i < |s| ==> l[i] == Lower(s[i])
  {
    seq(|s|, i requires 0 <= i < |s| => Lower(s[i]))
  }

  /**
   * strcasecmp(a, b) == 0: same length, and equal position by position after
   * lower-casing; that is, the two strings lower-case to the same string.
   */
  predicate EqualsIgnoreCase(a: string, b: string)
    ensures EqualsIgnoreCase(a, b) <==> LowerAll(a) == LowerAll(b)
    ensures a == b ==> EqualsIgnoreCase(a, b)
  {
    var r := |a| == |b| && forall i :: 0 <= i < |a| ==> Lower(a[i]) == Lower(b[i]);
    assert r <==> LowerAll(a) == LowerAll(b) by {
      if LowerAll(a) == LowerAll(b) {
        forall i | 0 <= i < |a|
          ensures Lower(a[i]) == Lower(b[i])
        {
          assert LowerAll(a)[i] == LowerAll(b)[i];
        }
      }
    }
    r
  }

  /**
   * What a C string function sees of a text: everything before the first NUL.
   * Host strings are binary-safe and may hold a NUL; the C comparison stops
   * there.
   */
  function CString(s: string): (p: string)
    ensures p <= s && '\0' !in p
    ensures |p| < |s| ==> s[|p|] == '\0'
    ensures '\0' !in s ==> p == s
  {
    if s == [] || s[0] == '\0' then [] else [s[0]] + CString(s[1..])
  }

  lemma EqualsIgnoreCaseIsEquivalence(a: string, b: string, c: string)
    ensures EqualsIgnoreCase(a, a)
    ensures EqualsIgnoreCase(a, b) ==> EqualsIgnoreCase(b, a)
    ensures EqualsIgnoreCase(a, b) && EqualsIgnoreCase(b, c) ==> EqualsIgnoreCase(a, c)
  {
  }

  // ---------------------------------------------------------------------------
  // Decimal digits

  predicate IsDigit(ch: char) {
    '0' <= ch <= '9'
  }

  predicate AllDigits(s: string) {
    forall i :: 0 <= i < |s| ==> IsDigit(s[i])
  }

  function Pow10(k: nat): (p: nat)
    ensures p >= 1
  {
    if k == 0 then 1 else 10 * Pow10(k - 1)
  }

  /** The value of a string of decimal digits, most significant first. */
  function DigitsValue(s: string): (n: nat)
    requires AllDigits(s)
    ensures n < Pow10(|s|)
  {
    if s == [] then 0
    else DigitsValue(s[..|s| - 1]) * 10 + (s[|s| - 1] as int - '0' as int)
  }

  /** Splits off an optional leading sign: (is it a minus, the rest). */
  function SplitSign(s: string): (bool, string) {
    if |s| > 0 && (s[0] == '-' || s[0] == '+') then (s[0] == '-', s[1..]) else (false, s)
  }

  /** Index of the first '.' in `s`, or |s| when there is none. */
  function DotIndex(s: string): (k: nat)
    ensures k <= |s|
    ensures k < |s| ==> s[k] == '.'
    ensures forall i :: 0 <= i < k ==> s[i] != '.'
  {
    if s == [] then 0 else if s[0] == '.' then 0 else 1 + DotIndex(s[1..])
  }

  /** A whole-token decimal integer: an optional sign followed by at least one digit, nothing else. */
  function DecimalInt(s: string): Option<int> {
    var (neg, body) := SplitSign(s);
    if |body| > 0 && AllDigits(body) then
      var n: int := DigitsValue(body);
      Some(if neg then -n else n)
    else None
  }

  /**
   * A whole-token decimal fraction: an optional sign, digits, and an optional
   * '.' with more digits; at least one digit in all ("3", "3.", ".5", "-3.14").
   */
  function DecimalReal(s: string): Option<real> {
    var (neg, body) := SplitSign(s);
    var k := DotIndex(body);
    var whole := body[..k];
    var frac := if k < |body| then body[k + 1..] else [];
    if AllDigits(whole) && AllDigits(frac) && |whole| + |frac| > 0 then
      var mag := DigitsValue(whole) as real + DigitsValue(frac) as real / Pow10(|frac|) as real;
      Some(if neg then -mag else mag)
    else None
  }

  predicate IsSign(ch: char) {
    ch == '-' || ch == '+'
  }

  /**
   * The integer parse of a token. In generic mode this is strtoll with the
   * "nothing left over" test; strtoll converts nothing in an empty string, so
   * the end pointer already sits on the terminator and the empty token reads
   * as 0. In host mode the host's parser rejects the empty string.
   * An accepted token is digits with at most a leading sign, nothing else.
   */
  function IntOf(repr: Repr, t: Token): (r: Option<int>)
    ensures t.text == [] ==> r == (if repr == Generic then Some(0) else None)
    ensures r.Some? ==> forall i :: 0 <= i < |t.text| ==> IsDigit(t.text[i]) || (i == 0 && IsSign(t.text[i]))
    ensures r.Some? && r.value < 0 ==> t.text[0] == '-'
  {
    if repr == Generic && t.text == [] then Some(0)
    else DecimalIntShape(t.text); DecimalInt(t.text)
  }

  /**
   * The floating-point parse of a token, with the same empty-token behaviour
   * of strtod. An accepted token is digits and at most one '.', with at most
   * a leading sign.
   */
  function RealOf(repr: Repr, t: Token): (r: Option<real>)
    ensures t.text == [] ==> r == (if repr == Generic then Some(0.0) else None)
    ensures r.Some? ==> forall i :: 0 <= i < |t.text| ==>
                          IsDigit(t.text[i]) || t.text[i] == '.' || (i == 0 && IsSign(t.text[i]))
    ensures r.Some? ==> forall i, j :: 0 <= i < j < |t.text| && t.text[i] == '.' ==> t.text[j] != '.'
  {
    if repr == Generic && t.text == [] then Some(0.0)
    else DecimalRealShape(t.text); DecimalReal(t.text)
  }

  lemma DecimalIntShape(s: string)
    ensures DecimalInt(s).Some? ==> forall i :: 0 <= i < |s| ==> IsDigit(s[i]) || (i == 0 && IsSign(s[i]))
    ensures DecimalInt(s).Some? && DecimalInt(s).value < 0 ==> s[0] == '-'
  {
    if DecimalInt(s).Some? && |s| > 0 && IsSign(s[0]) {
      var body := s[1..];
      forall i | 1 <= i < |s|
        ensures IsDigit(s[i])
      {
        assert s[i] == body[i - 1];
      }
    }
  }

  lemma DecimalRealShape(s: string)
    ensures DecimalReal(s).Some? ==> forall i :: 0 <= i < |s| ==>
                                       IsDigit(s[i]) || s[i] == '.' || (i == 0 && IsSign(s[i]))
    ensures DecimalReal(s).Some? ==> forall i, j :: 0 <= i < j < |s| && s[i] == '.' ==> s[j] != '.'
  {
    if DecimalReal(s).Some? {
      var (neg, body) := SplitSign(s);
      var o := if |s| > 0 && IsSign(s[0]) then 1 else 0;
      assert body == s[o..];
      var k := DotIndex(body);
      var frac := if k < |body| then body[k + 1..] else [];
      assert AllDigits(body[..k]) && AllDigits(frac);
      forall i | o <= i < |s|
        ensures IsDigit(s[i]) || s[i] == '.'
        ensures s[i] == '.' ==> i == o + k
      {
        assert s[i] == body[i - o];
        if i - o < k {
          assert body[i - o] == body[..k][i - o];
        } else if i - o > k {
          assert body[i - o] == frac[i - o - k - 1];
        }
      }
    }
  }

  lemma AllDigitsHasNoDot(s: string)
    requires AllDigits(s)
    ensures DotIndex(s) == |s|
  {
  }

  /** Whatever parses as an integer parses as the same number when read as a double. */
  lemma IntegersParseAsReals(repr: Repr, t: Token)
    requires IntOf(repr, t).Some?
    ensures RealOf(repr, t) == Some(IntOf(repr, t).value as real)
  {
    if !(repr == Generic && t.text == []) {
      var (neg, body) := SplitSign(t.text);
      AllDigitsHasNoDot(body);
      assert body[..|body|] == body;
    }
  }

  /** The decimal spelling of a natural number, most significant digit first. */
  function DecimalDigits(n: nat): (s: string)
    ensures |s| > 0 && AllDigits(s) && DigitsValue(s) == n
    decreases n
  {
    var last := ('0' as int + n % 10) as char;
    if n < 10 then [last]
    else
      var s := DecimalDigits(n / 10) + [last];
      assert s[..|s| - 1] == DecimalDigits(n / 10);
      s
  }

  /** The decimal spelling of an integer, as printf's "%lld" writes it. */
  function Decimal(n: int): (s: string)
    ensures |s| > 0
  {
    if n < 0 then ['-'] + DecimalDigits(-n) else DecimalDigits(n)
  }

  /**
   * The parsers read back what "%lld" writes: every integer's decimal spelling
   * parses to that integer, as an integer and as a double, in both
   * representations.
   */
  lemma {:induction false} ParsesItsDecimalForm(repr: Repr, n: int)
    ensures IntOf(repr, Token(Decimal(n))) == Some(n)
    ensures RealOf(repr, Token(Decimal(n))) == Some(n as real)
  {
    var s := Decimal(n);
    if n < 0 {
      assert SplitSign(s) == (true, DecimalDigits(-n));
    } else {
      assert IsDigit(s[0]);
      assert SplitSign(s) == (false, s);
    }
    assert DecimalInt(s) == Some(n);
    IntegersParseAsReals(repr, Token(s));
  }

  // ---------------------------------------------------------------------------
  // Conversions between double and integer

  /** The value is a whole number: the cast to long long and back loses nothing. */
  predicate IsIntegral(x: real) {
    x == x.Floor as real
  }

  /** C's conversion from double to an integer type: truncation toward zero. */
  function Trunc(x: real): (n: int)
    ensures 0.0 <= x ==> 0 <= n && n as real <= x < n as real + 1.0
    ensures x < 0.0 ==> n <= 0 && n as real - 1.0 < x <= n as real
  {
    if x >= 0.0 then x.Floor else -((-x).Floor)
  }

  /** The round trip double -> long long -> double is exact precisely for whole numbers. */
  lemma TruncExactIffIntegral(x: real)
    ensures Trunc(x) as real == x <==> IsIntegral(x)
  {
    if IsIntegral(x) && x < 0.0 {
      var n := x.Floor;
      assert -x == (-n) as real;
      assert (-x).Floor == -n;
    }
  }
}
